=== FILE: README.md ===
# Food delivery backend: order lifecycle and entity store, in Dafny

This project models the core of a food-delivery REST backend. The backend is an
Express application over Sequelize and PostgreSQL, and it has four kinds of
actors: customers, restaurants, couriers and administrators. The model covers
the order lifecycle and the relational store behind it. It does not model the
HTTP layer.

The store is seven tables: users, restaurants, couriers, menu items, orders,
order lines and ratings. Each table is a finite map from auto-incremented ids to
immutable records (`Tables.Table`, `Schema.Store`).

Each controller handler is a pure function. It takes the store and the request
fields and returns one of two things:
- `Done(store', value)`;
- `Refused(code)`, where the code is `BadRequest`, `Unauthorized`, `NotFound` or
  `ServerError`.

Read-only handlers return `Ok(value)` or `Err(code)`.

A request field is `Absent` (undefined), `Null` or `Given(v)`. The JavaScript
idioms the handlers rely on are spelled out once, in `Js`:
- `x || d` and `Boolean(x)`;
- destructuring defaults;
- how Sequelize's `create` and instance `update` treat `undefined` and `null`.

Sequelize stamps `updatedAt` only when a column really changes (`Schema.Touch`).

The order status can be written from three places, and each is its own function:
- **Courier claim** (`Couriers.AcceptOrder`). It takes only a `Pending` order
  with no courier, and only for an existing, active courier. The courier's
  approval flag is not consulted.
- **Courier status update** (`Couriers.UpdateOrderStatus`). One of three
  strings, on an order whose `courier_id` equals the one sent. There is no order
  among the three.
- **Restaurant accept** (`Restaurants.AcceptOrder`). Any string, or `Accepted`
  by default, on any order of that restaurant, whatever its current status.

Status is an open type, `Pending | Accepted | PickedUp | Delivered |
Other(text)`, because the restaurant path stores any string. `OrderStatus.Parse`
and `OrderStatus.Text` convert between the type and the stored string in both
directions. An order row holds an `OrderStatus.Recorded`: a status whose
`Other` case never spells one of the four lifecycle strings, so each stored
string has exactly one status and every comparison against the column agrees
with the constructor tests.

Around these writers sit:
- the selection queries, each proved to return exactly the matching rows, each
  once, in the requested order, within the limit;
- the creation defaults;
- the order total;
- the two-step order delete;
- the existence checks that guard every create and update;
- the rating table's own rules: the score range, one rating per
  (restaurant, user) pair, required columns, and cascading deletes.

`Lifecycle` holds the lemmas that connect the handlers:
- a courier can claim exactly the orders the queue lists;
- a second claim is refused;
- a default restaurant accept strands an order: it is neither queued nor
  assigned;
- the courier path can rewind a delivered order;
- the total moves by exactly the value of a line that is added;
- a deleted menu item makes every order that uses it unreadable;
- the cascades keep the rating rules.

`Accounts` and `Catalogue` do the same for the account handlers and for the
restaurant and menu handlers:
- a registration logs in exactly when the password verifies;
- a second registration with the same email is refused;
- a new password is what the next login is checked against;
- a deleted account no longer logs in and leaves no rating behind;
- what is created reads back and is listed;
- an update that sends nothing writes nothing;
- what is deleted is no longer found and can no longer be referred to.

What the code does, and the model with it:
- **Courier approval.** A courier has an `isApproved` flag, but `acceptOrder`
  checks only `isActive`. An unapproved, active courier can claim orders.
- **No approval filter.** `getAllRestaurants` does not filter on `isapproved`,
  so the public list includes restaurants still pending approval.
- **Restaurant approval default.** `addRestaurant` defaults `isapproved` to
  true, so an added restaurant is approved unless the request says otherwise.
- **Record fields.** The model files omit several columns the controllers read
  and write:
  - `isActive` and `isApproved` on Courier;
  - `isapproved` on Restaurant;
  - the role flags on User.

  The records follow the controllers.
- **Null courier id.** In the routed `updateOrderStatus`, a request with
  `courier_id: null` matches SQL `courier_id IS NULL`, so it moves any unclaimed
  order (`Lifecycle.NullCourierMovesUnclaimed`). A request that omits
  `courier_id` puts `undefined` in the where-clause. Sequelize v6 rejects that,
  and the handler answers 500.
- **Include aliases.** Three handlers eager-load `User` or `Courier` without
  `as`, although `config/db.config.js` declares Order's only associations with
  them under the aliases `customer` and `courier`. Sequelize then throws before
  any query runs, so those handlers answer 500 (see "## Findings"). The rest of
  the model uses the intended reads, with the aliases in place. `OrderItem` is
  associated with Order twice, as `items` and without an alias
  (`models/orderItem.model.js`), so an `OrderItem` include without `as`
  resolves.

## Model

| member | source | states |
|---|---|---|
| Tables.Insert | models/order.model.js:8 | a created row gets the sequence's next value, which no live row holds; every other row is unchanged |
| Tables.Select | controllers/couriers.js:11-15 | a `findAll` with a filter returns exactly the rows that pass it, each once, listed by id |
| Tables.SortOn | controllers/couriers.js:32 | ordering by a column permutes the ids (same multiset) and sorts them by that column |
| Tables.Take | controllers/couriers.js:158 | `limit n` keeps the first `n` ids (all of them if there are fewer) |
| Includes.MissingAliasFails | config/db.config.js:25-28 | an include without `as` of a model whose every association with Order carries an alias (the customer, the courier) makes the whole query answer 500 |
| OrderStatus.Parse | controllers/restaurants.js:78 | any stored status string is read back as the same string; the known ones map to their constructors |
| OrderStatus.ParseText | controllers/restaurants.js:78 | storing a status and reading it back gives the same status |
| OrderStatus.TextInjective | controllers/couriers.js:236 | two statuses stored as the same string are the same status |
| OrderStatus.CourierStatus | controllers/couriers.js:236-239 | accepts exactly `Accepted`, `Picked Up` and `Delivered`, and maps each to its status |
| Schema.Touch | controllers/couriers.js:254 | `updatedAt` moves to the current time exactly when some column changed |
| Schema.SaveOrder | controllers/couriers.js:72-75 | an instance `update` rewrites one order row and no other row or table |
| Couriers.AvailableOrders | controllers/couriers.js:11-32 | exactly the pending orders with no courier, each once, oldest `order_time` first |
| Couriers.AcceptOrder | controllers/couriers.js:45-75 | a missing courier gives 404 and an inactive one 400; for an active courier, an order that is missing or not pending and unassigned gives 404; the claim succeeds iff the order is pending and unassigned; it then sets only the courier and `Accepted`; nothing changes on refusal |
| Couriers.CurrentOrder | controllers/couriers.js:103-126 | 404 for a missing courier; otherwise an order of that courier in `Accepted` or `Picked Up`, or none only when no such order exists |
| Couriers.LimitOf | controllers/couriers.js:136 | a missing, unparseable or zero limit becomes 10; any other number is kept |
| Couriers.PastOrders | controllers/couriers.js:133-158 | 404 for a missing courier; 500 exactly when the courier exists and the limit is negative; otherwise a page of the courier's delivered orders that `IsPastPage` describes |
| Couriers.PastPageCorrect | controllers/couriers.js:143-158 | the page holds only the courier's delivered orders, once each, latest update first, at most `limit` of them, and omits one only when the page is full of no-older ones |
| Couriers.TakeKeepsFront | controllers/couriers.js:157-158 | cutting a sorted list keeps it sorted and duplicate-free; whatever is cut ranks after everything kept |
| Couriers.ToggleAvailability | controllers/couriers.js:171-179 | 404 for a missing courier; otherwise sets `isActive` to the value sent (an omitted value keeps it) and nothing else |
| Couriers.AssignedOrders | controllers/couriers.js:203-218 | 404 for a missing courier; otherwise exactly the orders with that courier, any status, each once |
| Couriers.AssignedOrdersAlwaysFails | controllers/couriers.js:206-218 | as written, 404 for a missing courier and 500 for every existing one, because `User` is included without `customer` |
| Couriers.AssignedOrdersWithAlias | config/db.config.js:25 | with `as: "customer"` the answer is `AssignedOrders` |
| Couriers.UpdateOrderStatus | controllers/couriers.js:232-254 | a status outside the three gives 400; an omitted courier id 500; otherwise it succeeds iff the order's courier equals the one sent (null matching no courier) and gives 404 when not; only the status changes, and `updatedAt` moves to now iff the status did |
| Orders.AddItems | controllers/orders.js:37-45 | one order line per requested element, in order, under consecutive new ids, with the new order's id and the menu item and quantity sent |
| Orders.NewOrder | controllers/orders.js:26-34 | the new order is `Pending` for the customer and restaurant sent; a falsy courier id is none; a falsy address is the customer's; a falsy tip is 0 and a falsy fee 5.00; it is stamped now, with no estimated delivery |
| Orders.CreateOrder | controllers/orders.js:11-45 | 404 iff the customer or the restaurant is missing; otherwise one new order under the next id, with the defaults `NewOrder` states, and exactly the lines `AddItems` adds for it; only the orders and lines tables change |
| Orders.ItemsOf | controllers/orders.js:75-85 | exactly the lines of the order, each once, listed by id |
| Orders.SumFailsOnUnpriced | controllers/orders.js:92-97 | the `reduce` throws exactly when some line has no menu item to price it |
| Orders.GetOrderById | controllers/orders.js:73-97 | the intended read: 404 for a missing order; for an existing one, 500 iff one of its lines has no menu item to price it; otherwise the order and the total its lines sum to |
| Orders.GetOrderByIdAlwaysFails | controllers/orders.js:75-85 | as written, every request answers 500, because the include list names `User` and `Courier` without their aliases `customer` and `courier` |
| Orders.GetOrderByIdWithAliases | config/db.config.js:25-28 | with `customer` and `courier` added to the include list the read is `GetOrderById`, and it reports the order with its total |
| Orders.UpdateOrder | controllers/orders.js:111-124 | 404 for a missing order; status, courier and estimated time change exactly when sent truthy; nothing else changes except `updatedAt`, which moves to now iff a field changed |
| Orders.DeleteOrder | controllers/orders.js:146-157 | 404 for a missing order; otherwise removes the order and exactly its lines, and nothing else |
| Orders.OrdersByUser | controllers/orders.js:169-188 | 404 for a missing user; otherwise exactly that user's orders, each once, newest `order_time` first |
| Orders.OrdersByUserResolves | controllers/orders.js:177-188 | every entry of the handler's include list resolves (`courier` by its alias, `Restaurant` and `OrderItem` by their unaliased associations), so the handler answers exactly `OrdersByUser` |
| Restaurants.AllRestaurants | controllers/restaurants.js:8 | every restaurant, approved or not, each once |
| Restaurants.RestaurantById | controllers/restaurants.js:20-23 | the restaurant, or 404 iff it is missing |
| Restaurants.RestaurantMenu | controllers/restaurants.js:36-43 | 404 for a missing restaurant; otherwise exactly the menu items that point at it |
| Restaurants.AcceptOrder | controllers/restaurants.js:55-78 | 404 iff the restaurant is missing or the order is not one of its orders; otherwise the status becomes the string sent, or `Accepted` when it is falsy, whatever it was; the courier is untouched, and `updatedAt` moves to now iff the status changed |
| OrderItems.CreateOrderItem | controllers/orderItems.js:8-26 | 404 iff the order or the menu item is missing; otherwise adds exactly one line with the values sent |
| OrderItems.UpdateOrderItem | controllers/orderItems.js:70-88 | 404 for a missing line, or for a truthy new menu item that differs from the current one and does not exist; an undefined quantity is kept; a falsy menu item id keeps the current one |
| OrderItems.DeleteOrderItem | controllers/orderItems.js:109-116 | 404 for a missing line; otherwise removes only that line |
| MenuItems.CreateMenuItem | controllers/menuItems.js:38-52 | 404 iff the restaurant is missing; a falsy category becomes `Main`, a falsy description NULL; the item is available |
| MenuItems.GetMenuItem | controllers/menuItems.js:21-27 | the item, or 404 iff it is missing |
| MenuItems.UpdateMenuItem | controllers/menuItems.js:67-88 | 404 for a missing item, or for a truthy restaurant that differs from the current one and does not exist; every field sent is written (null included) and omitted ones are kept |
| MenuItems.DeleteMenuItem | controllers/menuItems.js:104-109 | 404 for a missing item; otherwise removes only that item, leaving order lines that use it |
| Admin.AddRestaurant | controllers/admin.js:8-32 | 400 iff no truthy owner id; an omitted `isapproved` means approved and an explicit null stays null |
| Admin.AddMenuItem | controllers/admin.js:46-58 | 404 iff the restaurant is missing; otherwise one item with the column defaults |
| Admin.AddCourier | controllers/admin.js:72-104 | 400 iff no truthy user id; inactive unless `isActive` is sent as true; not approved |
| Admin.DeleteRestaurant | controllers/admin.js:118-125 | 404 for a missing restaurant; otherwise removes it and exactly its ratings, and nothing else |
| Admin.PendingRestaurants | controllers/admin.js:154-155 | exactly the restaurants whose `isapproved` is false, each once, and their count |
| Admin.ApproveRestaurant | controllers/admin.js:164-167 | 404 for a missing restaurant; otherwise sets `isapproved` to true and nothing else |
| Admin.ApproveIdempotent | controllers/admin.js:165-167 | approving twice leaves the store as approving once |
| Admin.ApproveLeavesPending | controllers/admin.js:154-167 | after approval the pending list is the old one without that restaurant |
| Users.Register | controllers/users.js:9-61 | 400 iff the email is taken; otherwise 500 iff the password is missing (bcrypt rejects it), with nothing created; role flags are the boolean coercions, false when omitted; a courier profile, inactive and unapproved, is created iff `isCourier` is truthy; falsy vehicle and city fields are stored NULL |
| Users.UserByEmail | controllers/users.js:103 | a user holding the email (a null email matching a NULL column), or none iff nobody holds it |
| Users.Login | controllers/users.js:100-112 | 500 for an omitted email; the same 401 for an unknown email and a wrong password; 500 for a known email sent without a password; success means the email matches and the password verifies, and with a password sent that verifies for the email's holders it succeeds iff the email is known |
| Users.UpdateUser | controllers/users.js:170-186 | 404 for a missing user; the profile fields sent are written; the hash changes only for a truthy password; role flags are untouched |
| Users.DeleteAccount | controllers/users.js:206-213 | 404 for a missing user; otherwise removes it and exactly its ratings |
| Ratings.InsertRating | models/rating.model.js:7-19 | a missing column, a score outside 1..5, a taken pair or a missing parent is refused; otherwise one row is added |
| Ratings.Cascade | models/rating.model.js:8-9 | deleting a restaurant or a user removes exactly the ratings that refer to it and keeps the others as they were |
| Ratings.InsertKeepsConsistent | models/rating.model.js:8-19 | every accepted insert keeps the score range, the references and the one-rating-per-pair rule |
| Ratings.SecondRatingRejected | models/rating.model.js:14-19 | a second rating for a pair is refused (as a duplicate when in range) and the first is kept |
| Lifecycle.ClaimableIffListed | controllers/couriers.js:59-69 | a claim succeeds iff the courier is active and the order is on the queue |
| Lifecycle.SecondClaimRefused | controllers/couriers.js:59-75 | after one claim every further claim is refused and the first courier keeps the order |
| Lifecycle.ClaimBecomesCurrent | controllers/couriers.js:110-114 | after a claim the courier has a current, in-progress order, and the claimed order is among its assigned ones |
| Lifecycle.RestaurantAcceptStrandsOrder | controllers/restaurants.js:78 | a default restaurant accept leaves the courier unset but takes the order off the queue, so no claim can succeed |
| Lifecycle.ToggleGatesClaims | controllers/couriers.js:171-179 | a courier switched off is refused every claim with 400; switched on, it can claim exactly the orders on the queue |
| Lifecycle.RestaurantOverridesAnyStatus | controllers/restaurants.js:67-78 | a default restaurant accept sets `Accepted` on any order of that restaurant, delivered ones included, and keeps its courier |
| Lifecycle.CourierMayRewindStatus | controllers/couriers.js:236-254 | a delivered order can be set back to `Accepted` by its courier |
| Lifecycle.NullCourierMovesUnclaimed | controllers/couriers.js:242-247 | a request with `courier_id: null` moves an unclaimed order |
| Lifecycle.PlacedOrderIsListed | controllers/orders.js:26-34 | an order placed without a courier is on the courier queue |
| Lifecycle.DeliveryRoundTrip | controllers/couriers.js:230-254 | claim, `Picked Up` and `Delivered` all succeed on a listed order; it ends delivered by that courier and is no longer its current order |
| Lifecycle.PickThenDeliver | controllers/couriers.js:236-254 | the courier holding an order can mark it `Picked Up` and then `Delivered`, after which it is delivered by that courier and no longer in progress |
| Lifecycle.CourierMoves | controllers/couriers.js:242-254 | the courier holding an order can set any of the three statuses on it |
| Lifecycle.OrderIdsDistinct | models/order.model.js:8 | two orders created in turn get different ids, and the first is unchanged |
| Lifecycle.PlacedOrderInHistory | controllers/orders.js:177-188 | a placed order appears in its customer's history, where it was not before |
| Lifecycle.EmptyOrderUpdateIsNoOp | controllers/orders.js:119-124 | a partial update with no truthy field leaves the store exactly as it was |
| Lifecycle.EmptyLineUpdateIsNoOp | controllers/orderItems.js:85-88 | a line update that sends neither field leaves the store exactly as it was |
| Lifecycle.CreateOrderKeepsLines | controllers/orders.js:37-45 | order creation keeps every line pointing at an order id already issued |
| Lifecycle.OrderItemEditsKeepLines | controllers/orderItems.js:11-26 | line creation, update and delete, and order delete, keep every line pointing at an order id already issued |
| Lifecycle.NewOrderTotalsZero | controllers/orders.js:92-97 | an order placed with no lines totals 0 |
| Lifecycle.NewLineComesLast | controllers/orderItems.js:22-26 | listed by id, a created line comes last among the order's lines, since its id exceeds every earlier line's |
| Lifecycle.SumUnchanged | controllers/orders.js:94-96 | the sum over a list of lines depends only on those lines' rows and the menu |
| Lifecycle.SumConcat | controllers/orders.js:94-96 | the sum over two runs of lines is the sum of their sums, and fails iff either fails |
| Lifecycle.SumSplice | controllers/orders.js:94-96 | a line contributes its value exactly once, wherever it sits in the list |
| Lifecycle.SumDropAt | controllers/orders.js:94-96 | dropping one entry from a list of lines, the other rows unchanged, takes its value off the sum |
| Lifecycle.SumWithoutLine | controllers/orders.js:94-96 | removing one line from an order's id-ordered lines takes exactly its value off the sum |
| Lifecycle.TotalAfterAdd | controllers/orderItems.js:22-26 | a new line for an existing menu item, the rest unchanged, raises the order total by price times quantity |
| Lifecycle.ReadAfterAdd | controllers/orders.js:87-102 | the same step as `getOrderById` reports it: same order, total raised by the line's value |
| Lifecycle.AddLineRaisesTotal | controllers/orderItems.js:22-26 | after `createOrderItem` the order reads back with its total raised by the new line's price times quantity |
| Lifecycle.TotalAfterDelete | controllers/orderItems.js:111-116 | removing one of an order's lines, the rest unchanged, lowers the total by that line's value |
| Lifecycle.ReadAfterDelete | controllers/orders.js:87-102 | the same step as `getOrderById` reports it: same order, total lowered by the line's value |
| Lifecycle.DeleteLineLowersTotal | controllers/orderItems.js:111-116 | after `deleteOrderItem` the order reads back with its total lowered by the deleted line's value |
| Lifecycle.DeletedOrderNotFound | controllers/orders.js:148-157 | after a delete the order reads as 404 and has no lines |
| Lifecycle.DeletedMenuItemBreaksOrder | controllers/orders.js:95 | deleting a menu item that an order uses makes that order read as 500 |
| Lifecycle.DeletesKeepRatingsConsistent | models/rating.model.js:8-9 | deleting a restaurant or an account keeps the rating rules |
| Lifecycle.CascadeIsNeeded | models/rating.model.js:8-9 | without the cascade a rated restaurant's delete would leave a dangling rating |
| Accounts.RegisterThenLogin | controllers/users.js:17-35 | right after a registration its email logs in as the new user iff the password verifies against the stored hash, and gets 401 otherwise |
| Accounts.RegisterTwiceRefused | controllers/users.js:17-20 | a second registration with the same email is refused with 400 |
| Accounts.RegisteredCourierCannotClaim | controllers/users.js:38-55 | the courier profile `register` creates belongs to the new user and is refused every claim, since it is inactive |
| Accounts.NewPasswordTakesEffect | controllers/users.js:179-186 | after a truthy password update the next login for that email succeeds iff the new password verifies |
| Accounts.DeletedAccountGone | controllers/users.js:208-213 | after a delete the email no longer logs in, the account can be neither updated nor deleted again, and none of its ratings remain |
| Catalogue.AddedRestaurantListed | controllers/admin.js:8-32 | an added restaurant is found and listed publicly whatever its approval, and is pending iff it was added with `isapproved` false |
| Catalogue.DeletedRestaurantGone | controllers/admin.js:118-125 | a deleted restaurant is neither found nor listed, has no menu, and can be given no menu item and no order |
| Catalogue.CreatedItemOnMenu | controllers/menuItems.js:38-52 | a created menu item reads back as stored and is on its restaurant's menu |
| Catalogue.AdminItemOnMenu | controllers/admin.js:46-58 | a menu item the admin adds reads back with its name and is on its restaurant's menu |
| Catalogue.UpdatedItemReadsBack | controllers/menuItems.js:82-93 | what `updateMenuItem` answers is what a later read returns |
| Catalogue.EmptyItemUpdateIsNoOp | controllers/menuItems.js:82-88 | an item update that sends no field leaves the store exactly as it was |
| Catalogue.DeletedItemGone | controllers/menuItems.js:104-109 | a deleted menu item is not found, is on no menu, and can no longer be put on an order |
| Catalogue.AddedCourierInactive | controllers/admin.js:72-104 | a courier the admin adds without `isActive: true` is refused every claim |

## Findings

| source | as written | input that shows it | evidently intended | confidence | as-written member | corrected member |
|---|---|---|---|---|---|---|
| controllers/orders.js:75-85 | `getOrderById` includes `User` and `Courier` with no `as`, but config/db.config.js:25 and :28 declare Order's only associations with them as `customer` and `courier` | any request, e.g. `GET /api/orders/1` for an existing order | the order with its total, 404 for a missing order, 500 only for an unpriced line | high for the thrown eager-loading error, assuming Sequelize v6; not executed | Orders.GetOrderByIdAlwaysFails | Orders.GetOrderByIdWithAliases |
| controllers/couriers.js:212-218 | `viewAssignedOrders` includes `User` with no `as`, but the association is declared as `customer` | any existing courier id | the courier and every order assigned to it | high, assuming Sequelize v6; not executed | Couriers.AssignedOrdersAlwaysFails | Couriers.AssignedOrdersWithAlias |

## Left out

- HTTP routing and CORS are not modelled. Neither are file serving, image
  upload, cookies and JWT signing, nor the `requireAdmin` and other guards. The
  guards' source is not part of this model.
- bcrypt is a parameter. `Users.Register` and `Users.UpdateUser` take the hash
  it produced. `Users.Login` takes the comparison as a relation, `verify`.
- The chatbot controller is a prompt built around a call to an external
  language-model service, so it is not modelled.
- Concurrency is not modelled. The courier claim reads and then writes with no
  compare-and-set. The model runs handlers one at a time and claims nothing
  about two claims that interleave.
- Money is integer cents. Prices are FLOAT and fees and tips DECIMAL(10, 2) in
  the source. Rounding is not modelled.
- Timestamps (`order_time`, `updatedAt`, `estimated_delivery_time`) are instants
  on an abstract clock, given as a parameter `now`.
- Type coercion of request fields is not modelled: NaN, numeric strings, or a
  string where a boolean is expected. Each field has the type its column has.
  Truthiness uses one falsy value per type.
- Ids arriving in paths and bodies are naturals. A missing or unparseable id is
  covered only where the handler's own logic depends on it. Elsewhere `findByPk`
  on such an id finds nothing, which is the same 404 the model gives for an
  unknown id.
- Response shaping is not modelled: the `attributes` lists, the included rows
  and the messages. Only whether an include resolves is modelled (`Includes`).
- The included `Restaurant` attributes in `getAvailableOrders`,
  `getCurrentOrder` and the courier `updateOrderStatus` name a `phone` column
  that the restaurant model file does not declare. Whether the table has that
  column is not part of this model. The model assumes it does.
- Orders.GetOrderById: models the intended read, with `as: "customer"` and
  `as: "courier"` on the `User` and `Courier` includes. As written the handler
  answers 500 to every request (`Orders.GetOrderByIdAlwaysFails`).
- Couriers.AssignedOrders: models the intended read, with `as: "customer"` on
  the `User` include. As written the handler answers 500 for every existing
  courier (`Couriers.AssignedOrdersAlwaysFails`).
- Orders.UpdateOrder: models the write of the unrouted `updateOrderStatus` in
  orders.js. The re-read after it includes `User` and `Courier` without their
  aliases, so as written the handler writes and then answers 500. The model
  returns the updated order instead.
- Foreign keys other than the rating table's are not modelled. The table sync
  that would create them is not part of this model, so deleting a user, a
  restaurant or a menu item leaves the rows that point at it.
- `getAllCouriers`, `getProfile`, `getAllMenuItems`, `getOrderItemById` and
  `logout` are left out. They are plain reads, or cookie handling, outside the
  lifecycle.
- The admin `deleteMenuItem` is the same store operation as the menu-items one.
  Both are `MenuItems.DeleteMenuItem`.
- Couriers.UpdateOrderStatus: an omitted `courier_id` answers 500, following
  Sequelize v6, which rejects `undefined` in a where-clause. The Sequelize
  version is not pinned in the source files.
- Tables.Select: a `findAll` without an `order` clause has no defined row
  order in PostgreSQL, and after updates rows need not come back by id. The
  model lists such rows by id. This concerns `viewAssignedOrders`,
  `getAllRestaurants`, `getRestaurantMenu`, `listPendingRestaurants` and the
  order lines of `getOrderById`. No contract depends on the order: the total is
  the same for every order of the lines (`Lifecycle.SumSplice`), and
  `Lifecycle.NewLineComesLast` speaks of the by-id listing only.
- Couriers.CurrentOrder: `findOne` without an `order` clause returns some
  matching row. The model returns the one with the lowest id. Its contract
  promises only some in-progress order of that courier.
- Couriers.ToggleAvailability: a NULL `isActive` is kept as false, because every
  reader of the flag only tests truthiness.
- Ratings.InsertRating: the rating handler is not part of this model. The
  function states the table's own constraints. It checks them in a fixed order
  (required columns, range, unique pair, parents), so it reports one violation
  where the database might report another.
- Users.Register: `email` is taken as given. A registration without an email is
  not modelled. A missing password is: bcrypt rejects it after the email check,
  and the handler answers 500 with nothing created.

=== FILE: accounts.dfy ===
/** How the account handlers of controllers/users.js fit together: what a
    registration makes possible, what an update changes for the next login,
    and what a deleted account leaves behind. */
module Accounts {

  import opened Js
  import opened Tables
  import opened Schema
  import Users
  import Couriers

  /** After a registration the email logs in as the new user exactly when the
      password matches the stored hash. */
  lemma RegisterThenLogin(s: Store, f: Users.Registration, hashed: string, password: string,
                          verify: (string, string) -> bool)
    requires Users.Register(s, f, hashed).Done?
    ensures var r := Users.Register(s, f, hashed);
            Users.Login(r.store, Given(f.email), Given(password), verify)
              == if verify(password, hashed) then Ok(r.value) else Err(Unauthorized)
  {
    var r := Users.Register(s, f, hashed);
    assert Users.EmailTaken(r.store, Some(f.email)) by {
      assert r.store.users.rows[r.value].email == Some(f.email);
    }
  }

  /** A second registration with the same email is refused. */
  lemma RegisterTwiceRefused(s: Store, f: Users.Registration, hashed: string, g: Users.Registration, hashed2: string)
    requires Users.Register(s, f, hashed).Done?
    requires g.email == f.email
    ensures Users.Register(Users.Register(s, f, hashed).store, g, hashed2) == Refused(BadRequest)
  {
    var r := Users.Register(s, f, hashed);
    assert r.store.users.rows[r.value].email == Some(f.email);
  }

  /** A courier who signed up through `register` is inactive, so every claim
      it makes is refused until it switches itself on. */
  lemma RegisteredCourierCannotClaim(s: Store, f: Users.Registration, hashed: string, orderId: Id, now: int)
    requires Users.Register(s, f, hashed).Done? && f.isCourier == Given(true)
    ensures var s1 := Users.Register(s, f, hashed).store;
            && s.couriers.next in s1.couriers.rows
            && s1.couriers.rows[s.couriers.next].userId == Users.Register(s, f, hashed).value
            && Couriers.AcceptOrder(s1, orderId, Some(s.couriers.next), now) == Refused(BadRequest)
  {
  }

  /** A truthy new password is what the next login is checked against, for
      the one user holding the email. */
  lemma NewPasswordTakesEffect(s: Store, id: Id, f: Users.Profile, hashed: string, email: string,
                               password: string, verify: (string, string) -> bool)
    requires id in s.users.rows && s.users.rows[id].email == Some(email)
    requires forall k :: k in s.users.rows && s.users.rows[k].email == Some(email) ==> k == id
    requires f.email.Absent? && Truthy(f.password, "")
    ensures var s1 := Users.UpdateUser(s, id, f, hashed).store;
            Users.Login(s1, Given(email), Given(password), verify) == if verify(password, hashed) then Ok(id) else Err(Unauthorized)
  {
    var s1 := Users.UpdateUser(s, id, f, hashed).store;
    assert Users.EmailTaken(s1, Some(email)) by {
      assert s1.users.rows[id].email == Some(email);
    }
  }

  /** A deleted account is gone for good: its email no longer logs in, it can
      be neither updated nor deleted again, and none of its ratings remain. */
  lemma DeletedAccountGone(s: Store, id: Id, email: string, password: Field<string>, verify: (string, string) -> bool,
                           f: Users.Profile, hashed: string)
    requires Users.DeleteAccount(s, id).Done?
    requires forall k :: k in s.users.rows && s.users.rows[k].email == Some(email) ==> k == id
    ensures var s1 := Users.DeleteAccount(s, id).store;
            && Users.Login(s1, Given(email), password, verify) == Err(Unauthorized)
            && Users.UpdateUser(s1, id, f, hashed) == Refused(NotFound)
            && Users.DeleteAccount(s1, id) == Refused(NotFound)
            && forall k :: k in s1.ratings.rows ==> s1.ratings.rows[k].userId != id
  {
    var s1 := Users.DeleteAccount(s, id).store;
    assert !Users.EmailTaken(s1, Some(email));
  }
}

=== FILE: admin.dfy ===
/** The admin handlers (controllers/admin.js). The `requireAdmin` guard in
    front of them is not part of this model. */
module Admin {

  import opened Js
  import opened Tables
  import opened Schema
  import Ratings

  /** The body of `addRestaurant`. */
  datatype RestaurantForm = RestaurantForm(
    name: Field<string>,
    address: Field<string>,
    phone: Field<string>,
    email: Field<string>,
    isapproved: Field<bool>,
    cuisineType: Field<string>,
    details: Field<string>,
    userId: Field<Id>)

  /** `addRestaurant`: needs a truthy owner id (not looked up); an omitted
      `isapproved` means approved. */
  function AddRestaurant(s: Store, f: RestaurantForm): (r: Step<Id>)
    ensures r.Refused? <==> !Truthy(f.userId, 0)
    ensures r.Refused? ==> r.code == BadRequest
    ensures r.Done? ==>
              && Frame(s, r.store, {Restaurants})
              && r.value == s.restaurants.next
              && r.store.restaurants.next == s.restaurants.next + 1
              && r.value in r.store.restaurants.rows
              && WithNewRow(s.restaurants, r.store.restaurants, r.value, r.store.restaurants.rows[r.value])
    ensures r.Done? ==>
              var x := r.store.restaurants.rows[r.value];
              && x.ownerId == f.userId.value
              && (f.isapproved.Absent? ==> x.approved == Some(true))
              && (f.isapproved.Null? ==> x.approved == None)
              && (f.isapproved.Given? ==> x.approved == Some(f.isapproved.value))
              && x.name == Stored(f.name) && x.address == Stored(f.address) && x.phone == Stored(f.phone)
              && x.email == Stored(f.email) && x.cuisineType == Stored(f.cuisineType)
              && x.details == Stored(f.details)
  {
    if !Truthy(f.userId, 0) then Refused(BadRequest)
    else
      var x := Restaurant(f.userId.value, Stored(f.name), Stored(f.address), Stored(f.phone), Stored(f.email),
                          Stored(f.cuisineType), Stored(f.details), Defaulted(f.isapproved, true));
      Done(s.(restaurants := Insert(s.restaurants, x)), s.restaurants.next)
  }

  /** `addMenuItem`: the restaurant must exist; the other columns take the
      model's defaults (category `"Main"`, available). */
  function AddMenuItem(s: Store, name: Field<string>, price: Field<Cents>, restaurantId: Field<Id>)
    : (r: Step<Id>)
    ensures r.Refused? <==> !(restaurantId.Given? && restaurantId.value in s.restaurants.rows)
    ensures r.Refused? ==> r.code == NotFound
    ensures r.Done? ==>
              && Frame(s, r.store, {MenuItems})
              && r.value == s.menuItems.next
              && r.store.menuItems.next == s.menuItems.next + 1
              && WithNewRow(s.menuItems, r.store.menuItems, r.value,
                            MenuItem(Some(restaurantId.value), Stored(name), Stored(price), Some("Main"), None, true))
  {
    if !(restaurantId.Given? && restaurantId.value in s.restaurants.rows) then Refused(NotFound)
    else
      var m := MenuItem(Some(restaurantId.value), Stored(name), Stored(price), Some("Main"), None, true);
      Done(s.(menuItems := Insert(s.menuItems, m)), s.menuItems.next)
  }

  /** The body of `addCourier`. */
  datatype CourierForm = CourierForm(
    name: Field<string>,
    email: Field<string>,
    phone: Field<string>,
    address: Field<string>,
    isActive: Field<bool>,
    vehicleMake: Field<string>,
    vehicleModel: Field<string>,
    vehicleYear: Field<int>,
    licensePlate: Field<string>,
    vehicleColour: Field<string>,
    city: Field<string>,
    userId: Field<Id>)

  /** `addCourier`: needs a truthy user id (not looked up); inactive unless
      `isActive` is sent as true. `isApproved` is not written. */
  function AddCourier(s: Store, f: CourierForm): (r: Step<Id>)
    ensures r.Refused? <==> !Truthy(f.userId, 0)
    ensures r.Refused? ==> r.code == BadRequest
    ensures r.Done? ==>
              && Frame(s, r.store, {Couriers})
              && r.value == s.couriers.next
              && r.store.couriers.next == s.couriers.next + 1
              && r.value in r.store.couriers.rows
              && WithNewRow(s.couriers, r.store.couriers, r.value, r.store.couriers.rows[r.value])
    ensures r.Done? ==>
              var c := r.store.couriers.rows[r.value];
              && c.userId == f.userId.value
              && c.isActive == (f.isActive == Given(true))
              && !c.isApproved
              && c.name == Stored(f.name) && c.email == Stored(f.email)
              && c.phone == Stored(f.phone) && c.address == Stored(f.address)
              && c.vehicle == Vehicle(Stored(f.vehicleMake), Stored(f.vehicleModel), Stored(f.vehicleYear),
                                      Stored(f.licensePlate), Stored(f.vehicleColour))
              && c.city == Stored(f.city)
  {
    if !Truthy(f.userId, 0) then Refused(BadRequest)
    else
      var vehicle := Vehicle(Stored(f.vehicleMake), Stored(f.vehicleModel), Stored(f.vehicleYear),
                             Stored(f.licensePlate), Stored(f.vehicleColour));
      var c := Courier(f.userId.value, Stored(f.name), Stored(f.email), Stored(f.phone), Stored(f.address),
                       vehicle, Stored(f.city), Defaulted(f.isActive, false) == Some(true), false);
      Done(s.(couriers := Insert(s.couriers, c)), s.couriers.next)
  }

  /** `deleteRestaurant`: the restaurant and, by the rating table's cascade,
      its ratings. Its menu items and orders are left in place. */
  function DeleteRestaurant(s: Store, id: Id): (r: Step<()>)
    ensures r.Refused? <==> id !in s.restaurants.rows
    ensures r.Refused? ==> r.code == NotFound
    ensures r.Done? ==>
              && Frame(s, r.store, {Restaurants, Ratings})
              && WithoutRow(s.restaurants, r.store.restaurants, id)
              && r.store.ratings.next == s.ratings.next
              && (forall k :: k in r.store.ratings.rows <==>
                    k in s.ratings.rows && s.ratings.rows[k].restaurantId != id)
              && (forall k :: k in r.store.ratings.rows ==> r.store.ratings.rows[k] == s.ratings.rows[k])
  {
    if id !in s.restaurants.rows then Refused(NotFound)
    else
      Done(s.(restaurants := Remove(s.restaurants, id),
              ratings := Ratings.Cascade(s.ratings, Ratings.OfRestaurant, id)), ())
  }

  predicate Pending(x: Restaurant) {
    x.approved == Some(false)
  }

  /** `listPendingRestaurants`: `isapproved = false` (a NULL flag is not
      pending), with their count. */
  function PendingRestaurants(s: Store): (r: (seq<Id>, nat))
    ensures Distinct(r.0)
    ensures forall k :: k in r.0 <==> k in s.restaurants.rows && s.restaurants.rows[k].approved == Some(false)
    ensures r.1 == |r.0|
  {
    var ids := Select(s.restaurants, Pending);
    IncreasingIsDistinct(ids);
    (ids, |ids|)
  }

  /** `approveRestaurant`: sets the flag and nothing else. */
  function ApproveRestaurant(s: Store, id: Id): (r: Step<Restaurant>)
    ensures r.Refused? <==> id !in s.restaurants.rows
    ensures r.Refused? ==> r.code == NotFound
    ensures r.Done? ==>
              && Frame(s, r.store, {Restaurants})
              && OnlyRow(s.restaurants, r.store.restaurants, id)
              && r.value == r.store.restaurants.rows[id]
              && r.value == s.restaurants.rows[id].(approved := Some(true))
  {
    if id !in s.restaurants.rows then Refused(NotFound)
    else
      var x := s.restaurants.rows[id].(approved := Some(true));
      Done(s.(restaurants := Put(s.restaurants, id, x)), x)
  }

  /** Approving twice leaves the store as approving once. */
  lemma ApproveIdempotent(s: Store, id: Id)
    requires ApproveRestaurant(s, id).Done?
    ensures var once := ApproveRestaurant(s, id).store;
            ApproveRestaurant(once, id) == Done(once, once.restaurants.rows[id])
  {
    var once := ApproveRestaurant(s, id).store;
    assert once.restaurants.rows[id := once.restaurants.rows[id]] == once.restaurants.rows;
  }

  /** An approved restaurant is no longer pending; no other restaurant's
      pending state changes. */
  lemma ApproveLeavesPending(s: Store, id: Id)
    requires ApproveRestaurant(s, id).Done?
    ensures var s' := ApproveRestaurant(s, id).store;
            forall k :: k in PendingRestaurants(s').0 <==> k in PendingRestaurants(s).0 && k != id
  {
  }
}

=== FILE: catalogue.dfy ===
/** How the restaurant and menu handlers (controllers/admin.js,
    controllers/menuItems.js, controllers/restaurants.js) fit together: what
    is created can be read back and listed, an empty update writes nothing,
    and what is deleted is no longer found. */
module Catalogue {

  import opened Js
  import opened Tables
  import opened Schema
  import Admin
  import Restaurants
  import MenuItems
  import Orders
  import OrderItems
  import Couriers

  /** A restaurant the admin adds is listed publicly whatever its approval;
      it is pending exactly when it was added with `isapproved` false. */
  lemma AddedRestaurantListed(s: Store, f: Admin.RestaurantForm)
    requires Admin.AddRestaurant(s, f).Done?
    ensures var r := Admin.AddRestaurant(s, f);
            && r.value in Restaurants.AllRestaurants(r.store)
            && Restaurants.RestaurantById(r.store, r.value) == Ok(r.store.restaurants.rows[r.value])
            && (r.value in Admin.PendingRestaurants(r.store).0 <==> f.isapproved == Given(false))
  {
  }

  /** A deleted restaurant is no longer found, listed or given menu items,
      and no order can be placed with it. */
  lemma DeletedRestaurantGone(s: Store, id: Id, item: MenuItems.MenuItemForm, name: Field<string>, price: Field<Cents>,
                              userId: Id, courierId: Field<Id>, address: Field<string>,
                              items: Option<seq<Orders.ItemRequest>>, tip: Field<Cents>, fee: Field<Cents>, now: int)
    requires Admin.DeleteRestaurant(s, id).Done?
    requires item.restaurantId == Given(id)
    ensures var s1 := Admin.DeleteRestaurant(s, id).store;
            && Restaurants.RestaurantById(s1, id) == Err(NotFound)
            && Restaurants.RestaurantMenu(s1, id) == Err(NotFound)
            && id !in Restaurants.AllRestaurants(s1)
            && MenuItems.CreateMenuItem(s1, item) == Refused(NotFound)
            && Admin.AddMenuItem(s1, name, price, Given(id)) == Refused(NotFound)
            && Orders.CreateOrder(s1, userId, id, courierId, address, items, tip, fee, now) == Refused(NotFound)
  {
  }

  /** A menu item created through `createMenuItem` reads back as stored and is
      on its restaurant's menu. */
  lemma CreatedItemOnMenu(s: Store, f: MenuItems.MenuItemForm)
    requires MenuItems.CreateMenuItem(s, f).Done?
    ensures var r := MenuItems.CreateMenuItem(s, f);
            && MenuItems.GetMenuItem(r.store, r.value) == Ok(r.store.menuItems.rows[r.value])
            && Restaurants.RestaurantMenu(r.store, f.restaurantId.value).Ok?
            && r.value in Restaurants.RestaurantMenu(r.store, f.restaurantId.value).value.1
  {
  }

  /** The same for a menu item the admin adds. */
  lemma AdminItemOnMenu(s: Store, name: Field<string>, price: Field<Cents>, restaurantId: Id)
    requires Admin.AddMenuItem(s, name, price, Given(restaurantId)).Done?
    ensures var r := Admin.AddMenuItem(s, name, price, Given(restaurantId));
            && MenuItems.GetMenuItem(r.store, r.value).Ok?
            && MenuItems.GetMenuItem(r.store, r.value).value.name == Stored(name)
            && Restaurants.RestaurantMenu(r.store, restaurantId).Ok?
            && r.value in Restaurants.RestaurantMenu(r.store, restaurantId).value.1
  {
  }

  /** What `updateMenuItem` answers is what a later read returns. */
  lemma UpdatedItemReadsBack(s: Store, id: Id, f: MenuItems.MenuItemForm)
    requires MenuItems.UpdateMenuItem(s, id, f).Done?
    ensures var r := MenuItems.UpdateMenuItem(s, id, f);
            MenuItems.GetMenuItem(r.store, id) == Ok(r.value)
  {
  }

  /** An update that sends no field writes nothing. */
  lemma EmptyItemUpdateIsNoOp(s: Store, id: Id)
    requires id in s.menuItems.rows
    ensures MenuItems.UpdateMenuItem(s, id, MenuItems.MenuItemForm(Absent, Absent, Absent, Absent, Absent))
              == Done(s, s.menuItems.rows[id])
  {
    assert s.menuItems.rows[id := s.menuItems.rows[id]] == s.menuItems.rows;
  }

  /** A deleted menu item is no longer found, no longer on any menu, and can
      no longer be put on an order. */
  lemma DeletedItemGone(s: Store, id: Id, restaurantId: Id, orderId: Id, quantity: Field<int>)
    requires MenuItems.DeleteMenuItem(s, id).Done?
    requires restaurantId in s.restaurants.rows
    ensures var s1 := MenuItems.DeleteMenuItem(s, id).store;
            && MenuItems.GetMenuItem(s1, id) == Err(NotFound)
            && id !in Restaurants.RestaurantMenu(s1, restaurantId).value.1
            && OrderItems.CreateOrderItem(s1, orderId, id, quantity) == Refused(NotFound)
  {
  }

  /** A courier the admin adds without `isActive: true` cannot claim orders. */
  lemma AddedCourierInactive(s: Store, f: Admin.CourierForm, orderId: Id, now: int)
    requires Admin.AddCourier(s, f).Done? && f.isActive != Given(true)
    ensures var r := Admin.AddCourier(s, f);
            Couriers.AcceptOrder(r.store, orderId, Some(r.value), now) == Refused(BadRequest)
  {
  }
}

=== FILE: couriers.dfy ===
/** The courier side of the order lifecycle (controllers/couriers.js): the queue
    of claimable orders, the claim, a courier's current and past orders, the
    availability switch, and the status updates a courier makes. */
module Couriers {

  import opened Js
  import opened Tables
  import opened OrderStatus
  import opened Schema
  import opened Includes

  /** `status = 'Pending' AND courier_id IS NULL`: the orders on offer to couriers. */
  predicate Claimable(o: Order) {
    o.status == Pending && o.courierId == None
  }

  /** The order a courier is working on: `courier_id = c AND status IN ('Accepted', 'Picked Up')`. */
  predicate InProgress(o: Order, c: Id) {
    o.courierId == Some(c) && (o.status == Accepted || o.status == PickedUp)
  }

  predicate DeliveredBy(o: Order, c: Id) {
    o.courierId == Some(c) && o.status == Delivered
  }

  /** The courier named in a request exists and its `isActive` flag is set. */
  predicate ActiveCourier(s: Store, c: Option<Id>) {
    c.Some? && c.value in s.couriers.rows && s.couriers.rows[c.value].isActive
  }

  /** `getAvailableOrders`: every claimable order, oldest first. */
  function AvailableOrders(s: Store): (r: seq<Id>)
    ensures forall k :: k in r <==> k in s.orders.rows && Claimable(s.orders.rows[k])
    ensures Distinct(r)
    ensures forall i, j :: 0 <= i < j < |r| ==>
              s.orders.rows[r[i]].orderTime <= s.orders.rows[r[j]].orderTime
  {
    var matching := Select(s.orders, Claimable);
    IncreasingIsDistinct(matching);
    var sorted := SortOn(matching, OldestFirst(s));
    assert forall i :: 0 <= i < |sorted| ==> sorted[i] in s.orders.rows;
    sorted
  }

  /** `acceptOrder`: a courier claims an order. The courier must exist and be
      active; the order must still be pending and unassigned. No approval flag
      is consulted. */
  function AcceptOrder(s: Store, orderId: Id, courierId: Option<Id>, now: int): (r: Step<Order>)
    ensures courierId.None? || courierId.value !in s.couriers.rows ==> r == Refused(NotFound)
    ensures (courierId.Some? && courierId.value in s.couriers.rows
             && !s.couriers.rows[courierId.value].isActive) ==> r == Refused(BadRequest)
    ensures r.Done? <==>
              ActiveCourier(s, courierId) && orderId in s.orders.rows && Claimable(s.orders.rows[orderId])
    ensures ActiveCourier(s, courierId) && !(orderId in s.orders.rows && Claimable(s.orders.rows[orderId])) ==>
              r == Refused(NotFound)
    ensures r.Refused? ==> r.code == NotFound || r.code == BadRequest
    ensures r.Done? ==>
              && Frame(s, r.store, {Orders})
              && OnlyRow(s.orders, r.store.orders, orderId)
              && r.value == r.store.orders.rows[orderId]
              && r.value == s.orders.rows[orderId].(courierId := courierId, status := Accepted, updatedAt := now)
  {
    if courierId.None? || courierId.value !in s.couriers.rows then Refused(NotFound)
    else if !s.couriers.rows[courierId.value].isActive then Refused(BadRequest)
    else if orderId !in s.orders.rows || !Claimable(s.orders.rows[orderId]) then Refused(NotFound)
    else
      var o := s.orders.rows[orderId];
      var s' := SaveOrder(s, orderId, o.(courierId := courierId, status := Accepted), now);
      Done(s', s'.orders.rows[orderId])
  }

  /** `getCurrentOrder`: one order the courier has in progress, if any. */
  function CurrentOrder(s: Store, courierId: Id): (r: Reply<Option<Id>>)
    ensures r.Err? <==> courierId !in s.couriers.rows
    ensures r.Err? ==> r.code == NotFound
    ensures r.Ok? && r.value.Some? ==>
              r.value.value in s.orders.rows && InProgress(s.orders.rows[r.value.value], courierId)
    ensures r.Ok? && r.value.None? ==>
              forall k :: k in s.orders.rows ==> !InProgress(s.orders.rows[k], courierId)
  {
    if courierId !in s.couriers.rows then Err(NotFound)
    else
      var matching := Select(s.orders, o => InProgress(o, courierId));
      if matching == [] then Ok(None) else Ok(Some(matching[0]))
  }

  /** `parseInt(req.query.limit) || 10`: `limit` is the parsed number, `None`
      when the query string has none or it does not parse (NaN). */
  function LimitOf(limit: Option<int>): (n: int)
    ensures limit.None? || limit.value == 0 ==> n == DefaultLimit
    ensures limit.Some? && limit.value != 0 ==> n == limit.value
  {
    if limit.None? || limit.value == 0 then DefaultLimit else limit.value
  }

  /** `getPastOrders`: the courier's most recently updated delivered orders,
      at most `LimitOf(limit)` of them. PostgreSQL rejects a negative LIMIT,
      which the handler reports as a 500. */
  function PastOrders(s: Store, courierId: Id, limit: Option<int>): (r: Reply<seq<Id>>)
    ensures courierId !in s.couriers.rows ==> r == Err(NotFound)
    ensures courierId in s.couriers.rows ==> (r.Err? <==> LimitOf(limit) < 0)
    ensures courierId in s.couriers.rows && LimitOf(limit) < 0 ==> r == Err(ServerError)
    ensures r.Err? ==> r.code == NotFound || r.code == ServerError
    ensures r.Ok? ==> LimitOf(limit) >= 0 && IsPastPage(s, courierId, LimitOf(limit), r.value)
  {
    if courierId !in s.couriers.rows then Err(NotFound)
    else if LimitOf(limit) < 0 then Err(ServerError)
    else
      PastPageCorrect(s, courierId, LimitOf(limit));
      Ok(PastPage(s, courierId, LimitOf(limit)))
  }

  /** A page of at most `n` delivered orders of courier `c`, latest update
      first, such that every delivered order left off is no later than any
      listed one, and none is left off while the page is short. */
  predicate IsPastPage(s: Store, c: Id, n: nat, page: seq<Id>) {
    && (forall k :: k in page ==> k in s.orders.rows && DeliveredBy(s.orders.rows[k], c))
    && Distinct(page)
    && |page| <= n
    && (forall i, j :: 0 <= i < j < |page| ==>
          s.orders.rows[page[i]].updatedAt >= s.orders.rows[page[j]].updatedAt)
    && (forall k :: k in s.orders.rows && DeliveredBy(s.orders.rows[k], c) && k !in page ==>
          |page| == n && forall j :: j in page ==> s.orders.rows[j].updatedAt >= s.orders.rows[k].updatedAt)
  }

  function PastPage(s: Store, c: Id, n: nat): seq<Id> {
    Take(SortOn(Select(s.orders, o => DeliveredBy(o, c)), LatestUpdateFirst(s)), n)
  }

  lemma PastPageCorrect(s: Store, c: Id, n: nat)
    ensures IsPastPage(s, c, n, PastPage(s, c, n))
  {
    var matching := Select(s.orders, o => DeliveredBy(o, c));
    IncreasingIsDistinct(matching);
    var key := LatestUpdateFirst(s);
    var sorted := SortOn(matching, key);
    var page := Take(sorted, n);
    assert page == PastPage(s, c, n);
    TakeKeepsFront(sorted, n, key);
    assert forall k :: k in page ==> k in sorted;
    forall i, j | 0 <= i < j < |page|
      ensures s.orders.rows[page[i]].updatedAt >= s.orders.rows[page[j]].updatedAt
    {
      assert key(page[i]) <= key(page[j]);
    }
    forall k | k in s.orders.rows && DeliveredBy(s.orders.rows[k], c) && k !in page
      ensures |page| == n && forall j :: j in page ==> s.orders.rows[j].updatedAt >= s.orders.rows[k].updatedAt
    {
      assert k in sorted;
      forall j | j in page
        ensures s.orders.rows[j].updatedAt >= s.orders.rows[k].updatedAt
      {
        assert key(j) <= key(k);
      }
    }
  }

  /** What `limit` cuts off ranks after everything it keeps, and nothing is
      cut off while the page is short. */
  lemma TakeKeepsFront(ids: seq<Id>, n: nat, key: Id -> int)
    requires SortedOn(ids, key) && Distinct(ids)
    ensures Distinct(Take(ids, n)) && SortedOn(Take(ids, n), key)
    ensures forall k :: k in ids && k !in Take(ids, n) ==>
              |Take(ids, n)| == n && forall j :: j in Take(ids, n) ==> key(j) <= key(k)
  {
    var page := Take(ids, n);
    forall k | k in ids && k !in page
      ensures |page| == n && forall j :: j in page ==> key(j) <= key(k)
    {
      var b :| 0 <= b < |ids| && ids[b] == k;
      forall j | j in page
        ensures key(j) <= key(k)
      {
        var a :| 0 <= a < |page| && page[a] == j;
        assert ids[a] == j;
      }
    }
  }

  /** `toggleAvailability`: sets `isActive` as given; an omitted value leaves it. */
  function ToggleAvailability(s: Store, courierId: Id, isActive: Field<bool>): (r: Step<Courier>)
    ensures r.Refused? <==> courierId !in s.couriers.rows
    ensures r.Refused? ==> r.code == NotFound
    ensures r.Done? ==>
              && Frame(s, r.store, {Couriers})
              && OnlyRow(s.couriers, r.store.couriers, courierId)
              && r.value == r.store.couriers.rows[courierId]
              && (isActive.Absent? ==> r.value == s.couriers.rows[courierId])
              && (!isActive.Absent? ==>
                    r.value == s.couriers.rows[courierId].(isActive := isActive == Given(true)))
  {
    if courierId !in s.couriers.rows then Refused(NotFound)
    else
      var c := s.couriers.rows[courierId];
      var c' := if isActive.Absent? then c else c.(isActive := Truthy(isActive, false));
      assert isActive.Given? ==> (Truthy(isActive, false) <==> isActive.value);
      Done(s.(couriers := Put(s.couriers, courierId, c')), c')
  }

  /** `viewAssignedOrders`: the courier and every order assigned to it, whatever its status. */
  function AssignedOrders(s: Store, courierId: Id): (r: Reply<(Courier, seq<Id>)>)
    ensures r.Err? <==> courierId !in s.couriers.rows
    ensures r.Err? ==> r.code == NotFound
    ensures r.Ok? ==>
              && r.value.0 == s.couriers.rows[courierId]
              && Distinct(r.value.1)
              && forall k :: k in r.value.1 <==>
                   k in s.orders.rows && s.orders.rows[k].courierId == Some(courierId)
  {
    if courierId !in s.couriers.rows then Err(NotFound)
    else
      var ids := Select(s.orders, (o: Order) => o.courierId == Some(courierId));
      IncreasingIsDistinct(ids);
      Ok((s.couriers.rows[courierId], ids))
  }

  /** The include list of `viewAssignedOrders` as written: `User` without
      `customer`, the alias of its only association with Order. */
  const AssignedOrdersIncludes: seq<Include> := [Include(UserModel, None), Include(RestaurantModel, None)]

  /** `viewAssignedOrders` as written: the courier is looked up without
      includes, then its orders with them. */
  function AssignedOrdersAsWritten(s: Store, courierId: Id): (r: Reply<(Courier, seq<Id>)>)
    ensures courierId !in s.couriers.rows ==> r == Err(NotFound)
    ensures courierId in s.couriers.rows && AllResolve(AssignedOrdersIncludes) ==> r == AssignedOrders(s, courierId)
  {
    if courierId !in s.couriers.rows then Err(NotFound) else Load(AssignedOrdersIncludes, AssignedOrders(s, courierId))
  }

  /** As written, `viewAssignedOrders` answers 500 for every existing courier. */
  lemma AssignedOrdersAlwaysFails(s: Store, courierId: Id)
    ensures AssignedOrdersAsWritten(s, courierId)
              == if courierId in s.couriers.rows then Err(ServerError) else Err(NotFound)
  {
    MissingAliasFails(AssignedOrdersIncludes, 0, AssignedOrders(s, courierId));
  }

  /** With `as: "customer"` on the `User` entry the answer is `AssignedOrders`. */
  lemma AssignedOrdersWithAlias(s: Store, courierId: Id)
    ensures var incs := [Include(UserModel, Some("customer")), Include(RestaurantModel, None)];
            Load(incs, AssignedOrders(s, courierId)) == AssignedOrders(s, courierId)
  {
    var incs := [Include(UserModel, Some("customer")), Include(RestaurantModel, None)];
    assert Resolves(incs[0]) && Resolves(incs[1]);
  }

  /** `updateOrderStatus` (the routed one): a courier sets one of three status
      strings on an order whose `courier_id` equals the one sent. The three may
      be written in any order. An explicit `null` courier id matches the orders
      nobody has claimed, as SQL `IS NULL`; an omitted one puts `undefined` in
      the where-clause, which Sequelize rejects, and the handler answers 500. */
  function UpdateOrderStatus(s: Store, orderId: Id, status: Field<string>, courierId: Field<Id>, now: int)
    : (r: Step<Order>)
    ensures !(status.Given? && CourierStatus(status.value).Some?) ==> r == Refused(BadRequest)
    ensures status.Given? && CourierStatus(status.value).Some? && courierId.Absent? ==> r == Refused(ServerError)
    ensures status.Given? && CourierStatus(status.value).Some? && !courierId.Absent? ==>
              (r.Done? <==> orderId in s.orders.rows && s.orders.rows[orderId].courierId == Stored(courierId))
    ensures status.Given? && CourierStatus(status.value).Some? && !courierId.Absent?
            && !(orderId in s.orders.rows && s.orders.rows[orderId].courierId == Stored(courierId)) ==>
              r == Refused(NotFound)
    ensures r.Done? ==>
              && Frame(s, r.store, {Orders})
              && OnlyRow(s.orders, r.store.orders, orderId)
              && r.value == r.store.orders.rows[orderId]
              && Text(r.value.status) == status.value
              && r.value.status in {Accepted, PickedUp, Delivered}
              && r.value.(status := s.orders.rows[orderId].status, updatedAt := s.orders.rows[orderId].updatedAt)
                 == s.orders.rows[orderId]
              && r.value.updatedAt
                 == if r.value.status == s.orders.rows[orderId].status then s.orders.rows[orderId].updatedAt else now
  {
    if !status.Given? || CourierStatus(status.value).None? then Refused(BadRequest)
    else if courierId.Absent? then Refused(ServerError)
    else if orderId !in s.orders.rows || s.orders.rows[orderId].courierId != Stored(courierId) then Refused(NotFound)
    else
      var o := s.orders.rows[orderId];
      var s' := SaveOrder(s, orderId, o.(status := CourierStatus(status.value).value), now);
      Done(s', s'.orders.rows[orderId])
  }
}

=== FILE: includes.dfy ===
/** Eager loading of an order's associations. config/db.config.js and
    models/orderItem.model.js declare Order's associations, some under an
    alias. Sequelize resolves an `include` entry when its `as` names one of the
    target's associations, and an entry without `as` when the target has an
    association without an alias. Otherwise it throws while preparing the
    query, before anything is read, and the handler's `catch` answers 500. */
module Includes {

  import opened Js
  import opened Schema

  /** The models the order queries eager-load. */
  datatype Model = UserModel | RestaurantModel | CourierModel | OrderItemModel

  /** One entry of an `include` list: the model and its `as`, if any. */
  datatype Include = Include(model: Model, alias: Option<string>)

  /** The `as` values an include of each model from Order may carry (`None`
      standing for no `as`). The customer and the courier are declared only
      under an alias (config/db.config.js:25, :28), the restaurant only without
      one (:31), and the items both ways: `items` (:35) and unaliased
      (models/orderItem.model.js:11). */
  function OrderAliases(m: Model): set<Option<string>> {
    match m
    case UserModel => {Some("customer")}
    case RestaurantModel => {None}
    case CourierModel => {Some("courier")}
    case OrderItemModel => {None, Some("items")}
  }

  predicate Resolves(inc: Include) {
    inc.alias in OrderAliases(inc.model)
  }

  predicate AllResolve(incs: seq<Include>) {
    forall i :: 0 <= i < |incs| ==> Resolves(incs[i])
  }

  /** An order query with include list `incs` whose rows would give `answer`. */
  function Load<T>(incs: seq<Include>, answer: Reply<T>): Reply<T> {
    if AllResolve(incs) then answer else Err(ServerError)
  }

  /** Including a model without `as` when all its associations with Order
      carry an alias is enough to make the whole query fail. */
  lemma MissingAliasFails<T>(incs: seq<Include>, i: nat, answer: Reply<T>)
    requires i < |incs| && incs[i].alias.None? && forall a :: a in OrderAliases(incs[i].model) ==> a.Some?
    ensures Load(incs, answer) == Err(ServerError)
  {
    assert !Resolves(incs[i]);
  }
}

=== FILE: js.dfy ===
/** The values one field of a JSON request body can carry, and the JavaScript
    coercions the handlers apply to them: `x || fallback`, `Boolean(x)`,
    destructuring defaults (`{ x = d } = req.body`) and the way Sequelize's
    instance `update` treats `undefined` and `null`. */
module Js {

  /** A nullable database column: `None` is SQL NULL. */
  datatype Option<+T> = None | Some(value: T)

  /** One field of a request body: missing (`undefined`), JSON `null`, or a value. */
  datatype Field<+T> = Absent | Null | Given(value: T)

  /** JavaScript truthiness for a field whose type has a single falsy value:
      `0` for numbers, `""` for strings, `false` for booleans. */
  predicate Truthy<T(==)>(f: Field<T>, falsy: T) {
    f.Given? && f.value != falsy
  }

  /** `f || fallback` */
  function Or<T(==)>(f: Field<T>, falsy: T, fallback: T): T {
    if Truthy(f, falsy) then f.value else fallback
  }

  /** `f || null`, as written into a nullable column. */
  function OrNull<T(==)>(f: Field<T>, falsy: T): Option<T> {
    if Truthy(f, falsy) then Some(f.value) else None
  }

  /** A field passed straight to `Model.create`: undefined and null both store NULL. */
  function Stored<T>(f: Field<T>): Option<T> {
    match f
    case Given(v) => Some(v)
    case _ => None
  }

  /** A field destructured with a default, `{ x = d } = req.body`: the default
      replaces `undefined` only; an explicit `null` stays null. */
  function Defaulted<T>(f: Field<T>, d: T): Option<T> {
    match f
    case Absent => Some(d)
    case Null => None
    case Given(v) => Some(v)
  }

  /** A field passed to an instance's `update`: Sequelize drops keys whose value
      is `undefined`, so the column keeps its value; `null` overwrites it. */
  function Updated<T>(f: Field<T>, current: Option<T>): Option<T> {
    match f
    case Absent => current
    case Null => None
    case Given(v) => Some(v)
  }

  /** A nullable numeric column read in arithmetic: `null * n` is `0` in JavaScript. */
  function NumberOf(o: Option<int>): int {
    match o
    case Some(n) => n
    case None => 0
  }
}

=== FILE: lifecycle.dfy ===
/** How the handlers compose: the claim queue and the three status writers,
    the order total as items come and go, and the integrity rules the deletes
    keep. Each lemma relates the outcome of one handler to what another one
    observes afterwards. */
module Lifecycle {

  import opened Js
  import opened Tables
  import opened OrderStatus
  import opened Schema
  import Couriers
  import Orders
  import Restaurants
  import OrderItems
  import MenuItems
  import Admin
  import Users
  import Ratings

  // ---------------------------------------------------------------- claiming

  /** A courier can claim exactly the orders `getAvailableOrders` lists, and
      only while it is active. */
  lemma ClaimableIffListed(s: Store, orderId: Id, courierId: Option<Id>, now: int)
    ensures Couriers.AcceptOrder(s, orderId, courierId, now).Done? <==>
              Couriers.ActiveCourier(s, courierId) && orderId in Couriers.AvailableOrders(s)
  {
  }

  /** Claims are first come, first served: once an order is claimed, a second
      claim by any courier is refused and the first courier keeps it. */
  lemma SecondClaimRefused(s: Store, orderId: Id, first: Option<Id>, second: Option<Id>, t1: int, t2: int)
    requires Couriers.AcceptOrder(s, orderId, first, t1).Done?
    ensures var s1 := Couriers.AcceptOrder(s, orderId, first, t1).store;
            && Couriers.AcceptOrder(s1, orderId, second, t2).Refused?
            && s1.orders.rows[orderId].courierId == first
            && orderId !in Couriers.AvailableOrders(s1)
  {
  }

  /** After a claim the courier has a current order to report, and the
      claimed order is among its assigned ones. */
  lemma ClaimBecomesCurrent(s: Store, orderId: Id, courierId: Id, now: int)
    requires Couriers.AcceptOrder(s, orderId, Some(courierId), now).Done?
    ensures var s1 := Couriers.AcceptOrder(s, orderId, Some(courierId), now).store;
            var r := Couriers.CurrentOrder(s1, courierId);
            && r.Ok? && r.value.Some?
            && Couriers.InProgress(s1.orders.rows[r.value.value], courierId)
            && orderId in Couriers.AssignedOrders(s1, courierId).value.1
  {
    var s1 := Couriers.AcceptOrder(s, orderId, Some(courierId), now).store;
    assert Couriers.InProgress(s1.orders.rows[orderId], courierId);
  }

  /** The restaurant's default accept takes an order off the courier queue
      although no courier has it: nobody can claim it any more. */
  lemma RestaurantAcceptStrandsOrder(s: Store, restaurantId: Id, orderId: Id, now: int,
                                     courierId: Option<Id>, later: int)
    requires Restaurants.AcceptOrder(s, restaurantId, orderId, Absent, now).Done?
    ensures var s1 := Restaurants.AcceptOrder(s, restaurantId, orderId, Absent, now).store;
            && s1.orders.rows[orderId].courierId == s.orders.rows[orderId].courierId
            && s1.orders.rows[orderId].status == Accepted
            && orderId !in Couriers.AvailableOrders(s1)
            && Couriers.AcceptOrder(s1, orderId, courierId, later).Refused?
  {
  }

  /** The availability switch is what gates claims: switched off, the courier
      is refused; switched on, it can claim exactly the listed orders. */
  lemma ToggleGatesClaims(s: Store, courierId: Id, on: bool, orderId: Id, now: int)
    requires courierId in s.couriers.rows
    ensures var s1 := Couriers.ToggleAvailability(s, courierId, Given(on)).store;
            && (!on ==> Couriers.AcceptOrder(s1, orderId, Some(courierId), now) == Refused(BadRequest))
            && (on ==> (Couriers.AcceptOrder(s1, orderId, Some(courierId), now).Done?
                        <==> orderId in Couriers.AvailableOrders(s)))
  {
  }

  // ------------------------------------------------------------ status order

  /** The courier path imposes no order on the three statuses: a delivered
      order can be set back to accepted by its courier. */
  lemma CourierMayRewindStatus(s: Store, orderId: Id, courierId: Id, now: int)
    requires orderId in s.orders.rows
    requires s.orders.rows[orderId].courierId == Some(courierId)
    requires s.orders.rows[orderId].status == Delivered
    ensures var r := Couriers.UpdateOrderStatus(s, orderId, Given("Accepted"), Given(courierId), now);
            r.Done? && r.value.status == Accepted
  {
    assert CourierStatus("Accepted") == Some(Accepted);
  }

  /** A request with `courier_id: null` can move any unclaimed order, since
      `courier_id IS NULL` then matches it. */
  lemma NullCourierMovesUnclaimed(s: Store, orderId: Id, now: int)
    requires orderId in s.orders.rows && s.orders.rows[orderId].courierId == None
    ensures var r := Couriers.UpdateOrderStatus(s, orderId, Given("Delivered"), Null, now);
            r.Done? && r.value.status == Delivered && r.value.courierId == None
  {
    assert CourierStatus("Delivered") == Some(Delivered);
  }

  /** An order placed without a courier goes straight onto the courier queue. */
  lemma PlacedOrderIsListed(s: Store, userId: Id, restaurantId: Id, now: int)
    requires userId in s.users.rows && restaurantId in s.restaurants.rows
    ensures var placed := Orders.CreateOrder(s, userId, restaurantId, Absent, Absent, None, Absent, Absent, now);
            && placed.Done?
            && placed.value in Couriers.AvailableOrders(placed.store)
  {
    var placed := Orders.CreateOrder(s, userId, restaurantId, Absent, Absent, None, Absent, Absent, now);
    assert Couriers.Claimable(placed.store.orders.rows[placed.value]);
  }

  /** The courier's whole delivery: a listed order is claimed by an active
      courier, picked up and delivered, after which it is the courier's
      delivered order and no longer its current one. */
  lemma DeliveryRoundTrip(s: Store, id: Id, courierId: Id, t1: int, t2: int, t3: int)
    requires id in Couriers.AvailableOrders(s)
    requires courierId in s.couriers.rows && s.couriers.rows[courierId].isActive
    ensures var claimed := Couriers.AcceptOrder(s, id, Some(courierId), t1);
            && claimed.Done?
            && var picked := Couriers.UpdateOrderStatus(claimed.store, id, Given("Picked Up"), Given(courierId), t2);
            && picked.Done? && picked.value.status == PickedUp
            && var done := Couriers.UpdateOrderStatus(picked.store, id, Given("Delivered"), Given(courierId), t3);
            && done.Done?
            && Couriers.DeliveredBy(done.store.orders.rows[id], courierId)
            && !Couriers.InProgress(done.store.orders.rows[id], courierId)
  {
    ClaimableIffListed(s, id, Some(courierId), t1);
    var claimed := Couriers.AcceptOrder(s, id, Some(courierId), t1);
    PickThenDeliver(claimed.store, id, courierId, t2, t3);
  }

  /** The second half of the round trip: the courier holding an order picks
      it up and then delivers it. */
  lemma PickThenDeliver(s: Store, id: Id, courierId: Id, t2: int, t3: int)
    requires id in s.orders.rows && s.orders.rows[id].courierId == Some(courierId)
    ensures var picked := Couriers.UpdateOrderStatus(s, id, Given("Picked Up"), Given(courierId), t2);
            && picked.Done? && picked.value.status == PickedUp
            && var done := Couriers.UpdateOrderStatus(picked.store, id, Given("Delivered"), Given(courierId), t3);
            && done.Done?
            && Couriers.DeliveredBy(done.store.orders.rows[id], courierId)
            && !Couriers.InProgress(done.store.orders.rows[id], courierId)
  {
    assert CourierStatus("Picked Up") == Some(PickedUp);
    CourierMoves(s, id, courierId, "Picked Up", t2);
    var picked := Couriers.UpdateOrderStatus(s, id, Given("Picked Up"), Given(courierId), t2);
    assert CourierStatus("Delivered") == Some(Delivered);
    CourierMoves(picked.store, id, courierId, "Delivered", t3);
  }

  /** The courier holding an order can set any of the three statuses on it. */
  lemma CourierMoves(s: Store, id: Id, courierId: Id, status: string, now: int)
    requires id in s.orders.rows && s.orders.rows[id].courierId == Some(courierId)
    requires CourierStatus(status).Some?
    ensures var r := Couriers.UpdateOrderStatus(s, id, Given(status), Given(courierId), now);
            && r.Done?
            && r.store.orders.rows[id] == r.value
            && r.value.status == CourierStatus(status).value
            && r.value.courierId == Some(courierId)
  {
  }

  /** The restaurant path overwrites whatever status an order has, delivered
      included, and leaves its courier as it was. */
  lemma RestaurantOverridesAnyStatus(s: Store, restaurantId: Id, orderId: Id, now: int)
    requires restaurantId in s.restaurants.rows
    requires orderId in s.orders.rows && s.orders.rows[orderId].restaurantId == restaurantId
    ensures var r := Restaurants.AcceptOrder(s, restaurantId, orderId, Absent, now);
            && r.Done? && r.value.status == Accepted
            && r.value.courierId == s.orders.rows[orderId].courierId
  {
  }

  // ----------------------------------------------------------------- creating

  /** The order sequence never repeats: two orders placed one after the other
      get different ids, and the first is still there. */
  lemma OrderIdsDistinct(s: Store, userId: Id, restaurantId: Id, courierId: Field<Id>, address: Field<string>,
                         items: Option<seq<Orders.ItemRequest>>, tip: Field<Cents>, fee: Field<Cents>, t1: int, t2: int)
    requires Orders.CreateOrder(s, userId, restaurantId, courierId, address, items, tip, fee, t1).Done?
    ensures var first := Orders.CreateOrder(s, userId, restaurantId, courierId, address, items, tip, fee, t1);
            var second := Orders.CreateOrder(first.store, userId, restaurantId, courierId, address, items, tip, fee, t2);
            && second.Done?
            && second.value != first.value
            && first.value in second.store.orders.rows
            && second.store.orders.rows[first.value] == first.store.orders.rows[first.value]
  {
  }

  /** A new order shows up in its customer's history, where it was not before. */
  lemma PlacedOrderInHistory(s: Store, userId: Id, restaurantId: Id, courierId: Field<Id>, address: Field<string>,
                             items: Option<seq<Orders.ItemRequest>>, tip: Field<Cents>, fee: Field<Cents>, now: int)
    requires Orders.CreateOrder(s, userId, restaurantId, courierId, address, items, tip, fee, now).Done?
    ensures var r := Orders.CreateOrder(s, userId, restaurantId, courierId, address, items, tip, fee, now);
            && Orders.OrdersByUser(r.store, userId).Ok?
            && r.value in Orders.OrdersByUser(r.store, userId).value
            && r.value !in Orders.OrdersByUser(s, userId).value
  {
  }

  /** The unrouted partial update with nothing truthy in it writes nothing,
      not even `updatedAt`. */
  lemma EmptyOrderUpdateIsNoOp(s: Store, id: Id, status: Field<string>, courierId: Field<Id>, eta: Field<int>, now: int)
    requires id in s.orders.rows
    requires !Truthy(status, "") && !Truthy(courierId, 0) && !Truthy(eta, 0)
    ensures Orders.UpdateOrder(s, id, status, courierId, eta, now) == Done(s, s.orders.rows[id])
  {
    assert s.orders.rows[id := s.orders.rows[id]] == s.orders.rows;
  }

  /** An order-line update that sends neither field leaves the line as it was. */
  lemma EmptyLineUpdateIsNoOp(s: Store, id: Id)
    requires id in s.orderItems.rows
    ensures OrderItems.UpdateOrderItem(s, id, Absent, Absent) == Done(s, s.orderItems.rows[id])
  {
    assert s.orderItems.rows[id := s.orderItems.rows[id]] == s.orderItems.rows;
  }

  // -------------------------------------------------------------- order total

  /** Every order line points at an order id already handed out. Lines are
      only written with an existing or a brand-new order id, and ids are not
      reused, so a new order starts with no lines. */
  predicate LinesPrecedeSequence(s: Store) {
    forall k :: k in s.orderItems.rows ==> s.orderItems.rows[k].orderId < s.orders.next
  }

  lemma CreateOrderKeepsLines(s: Store, userId: Id, restaurantId: Id, courierId: Field<Id>, address: Field<string>,
                              items: Option<seq<Orders.ItemRequest>>, tip: Field<Cents>, fee: Field<Cents>, now: int)
    requires LinesPrecedeSequence(s)
    requires Orders.CreateOrder(s, userId, restaurantId, courierId, address, items, tip, fee, now).Done?
    ensures LinesPrecedeSequence(Orders.CreateOrder(s, userId, restaurantId, courierId, address, items, tip, fee, now).store)
  {
    var r := Orders.CreateOrder(s, userId, restaurantId, courierId, address, items, tip, fee, now);
    var n := s.orderItems.next;
    forall k | k in r.store.orderItems.rows
      ensures r.store.orderItems.rows[k].orderId < r.store.orders.next
    {
      if k !in s.orderItems.rows {
        var i := k - n;
        assert 0 <= i < |Orders.ItemList(items)| && n + i == k;
        var item := Orders.ItemList(items)[i];
        assert r.store.orderItems.rows[n + i] == OrderItem(r.value, Stored(item.menuItemId), Stored(item.quantity));
      }
    }
  }

  lemma OrderItemEditsKeepLines(s: Store, orderId: Id, menuItemId: Id, quantity: Field<int>,
                                id: Id, newQuantity: Field<int>, newMenuItem: Field<Id>)
    requires LinesPrecedeSequence(s)
    ensures OrderItems.CreateOrderItem(s, orderId, menuItemId, quantity).Done? ==>
              LinesPrecedeSequence(OrderItems.CreateOrderItem(s, orderId, menuItemId, quantity).store)
    ensures OrderItems.UpdateOrderItem(s, id, newQuantity, newMenuItem).Done? ==>
              LinesPrecedeSequence(OrderItems.UpdateOrderItem(s, id, newQuantity, newMenuItem).store)
    ensures OrderItems.DeleteOrderItem(s, id).Done? ==> LinesPrecedeSequence(OrderItems.DeleteOrderItem(s, id).store)
    ensures Orders.DeleteOrder(s, id).Done? ==> LinesPrecedeSequence(Orders.DeleteOrder(s, id).store)
  {
  }

  /** An order placed with no lines totals 0. */
  lemma NewOrderTotalsZero(s: Store, userId: Id, restaurantId: Id, courierId: Field<Id>, address: Field<string>,
                           tip: Field<Cents>, fee: Field<Cents>, now: int)
    requires LinesPrecedeSequence(s)
    requires Orders.CreateOrder(s, userId, restaurantId, courierId, address, Some([]), tip, fee, now).Done?
    ensures var r := Orders.CreateOrder(s, userId, restaurantId, courierId, address, Some([]), tip, fee, now);
            Orders.GetOrderById(r.store, r.value) == Ok((r.store.orders.rows[r.value], 0))
  {
    var r := Orders.CreateOrder(s, userId, restaurantId, courierId, address, Some([]), tip, fee, now);
    var lines := Orders.ItemsOf(r.store, r.value);
    assert forall k :: k in r.store.orderItems.rows ==> k in s.orderItems.rows;
    IncreasingUnique(lines, []);
  }

  /** Adding a row for an order under the table's next id appends that id to
      the order's lines: it is above every existing one. */
  lemma LinesAfterAdd(s: Store, s1: Store, orderId: Id, x: OrderItem)
    requires WithNewRow(s.orderItems, s1.orderItems, s.orderItems.next, x) && x.orderId == orderId
    ensures Orders.ItemsOf(s1, orderId) == Orders.ItemsOf(s, orderId) + [s.orderItems.next]
  {
    var before := Orders.ItemsOf(s, orderId);
    var after := before + [s.orderItems.next];
    assert forall i :: 0 <= i < |before| ==> before[i] in s.orderItems.rows;
    assert Increasing(after);
    IncreasingUnique(Orders.ItemsOf(s1, orderId), after);
  }

  /** `createOrderItem` appends the new line to its order's lines. */
  lemma NewLineComesLast(s: Store, orderId: Id, menuItemId: Id, quantity: Field<int>)
    requires OrderItems.CreateOrderItem(s, orderId, menuItemId, quantity).Done?
    ensures var s1 := OrderItems.CreateOrderItem(s, orderId, menuItemId, quantity).store;
            Orders.ItemsOf(s1, orderId) == Orders.ItemsOf(s, orderId) + [s.orderItems.next]
  {
    LinesAfterAdd(s, OrderItems.CreateOrderItem(s, orderId, menuItemId, quantity).store, orderId,
                  OrderItem(orderId, Some(menuItemId), Stored(quantity)));
  }

  /** The total only looks at the lines it is given: two tables that agree on
      those lines give the same sum. */
  lemma SumUnchanged(lines: map<Id, OrderItem>, lines': map<Id, OrderItem>, menu: map<Id, MenuItem>, ids: seq<Id>)
    requires forall k :: k in ids ==> k in lines && k in lines' && lines'[k] == lines[k]
    ensures Orders.Sum(lines', menu, ids) == Orders.Sum(lines, menu, ids)
  {
    SumToUnchanged(lines, lines', menu, ids, |ids|);
  }

  lemma {:induction false} SumToUnchanged(lines: map<Id, OrderItem>, lines': map<Id, OrderItem>,
                                          menu: map<Id, MenuItem>, ids: seq<Id>, n: nat)
    requires n <= |ids|
    requires forall k :: k in ids ==> k in lines && k in lines' && lines'[k] == lines[k]
    ensures Orders.SumTo(lines', menu, ids, n) == Orders.SumTo(lines, menu, ids, n)
  {
    if n > 0 {
      SumToUnchanged(lines, lines', menu, ids, n - 1);
    }
  }

  /** The first `n` steps only see the first `n` ids. */
  lemma {:induction false} SumToPrefix(lines: map<Id, OrderItem>, menu: map<Id, MenuItem>, x: seq<Id>, y: seq<Id>, n: nat)
    requires n <= |x| && n <= |y|
    requires forall k :: k in x ==> k in lines
    requires forall k :: k in y ==> k in lines
    requires forall i :: 0 <= i < n ==> x[i] == y[i]
    ensures Orders.SumTo(lines, menu, x, n) == Orders.SumTo(lines, menu, y, n)
  {
    if n > 0 {
      SumToPrefix(lines, menu, x, y, n - 1);
    }
  }

  /** `Sum` peels its last line off. */
  lemma SumSnoc(lines: map<Id, OrderItem>, menu: map<Id, MenuItem>, front: seq<Id>, last: Id)
    requires forall k :: k in front ==> k in lines
    requires last in lines
    ensures Orders.Sum(lines, menu, front + [last]) ==
              if Orders.Sum(lines, menu, front).None? || !Orders.Priced(lines, menu, last) then None
              else Some(Orders.Sum(lines, menu, front).value + Orders.LineValue(lines, menu, last))
  {
    SumToPrefix(lines, menu, front + [last], front, |front|);
  }

  /** The total of two runs of lines is the sum of their totals, and fails when
      either fails. */
  lemma {:induction false} SumConcat(lines: map<Id, OrderItem>, menu: map<Id, MenuItem>, a: seq<Id>, b: seq<Id>)
    requires forall k :: k in a ==> k in lines
    requires forall k :: k in b ==> k in lines
    ensures Orders.Sum(lines, menu, a + b) ==
              if Orders.Sum(lines, menu, a).None? || Orders.Sum(lines, menu, b).None? then None
              else Some(Orders.Sum(lines, menu, a).value + Orders.Sum(lines, menu, b).value)
  {
    if b == [] {
      assert a + b == a;
    } else {
      var front := b[..|b| - 1];
      assert b == front + [b[|b| - 1]];
      SumConcat(lines, menu, a, front);
      SumConcatStep(lines, menu, a, front, b[|b| - 1]);
    }
  }

  /** One step of `SumConcat`: the claim carries over from `front` to
      `front + [last]`. */
  lemma SumConcatStep(lines: map<Id, OrderItem>, menu: map<Id, MenuItem>, a: seq<Id>, front: seq<Id>, last: Id)
    requires forall k :: k in a ==> k in lines
    requires forall k :: k in front ==> k in lines
    requires last in lines
    requires Orders.Sum(lines, menu, a + front) ==
               if Orders.Sum(lines, menu, a).None? || Orders.Sum(lines, menu, front).None? then None
               else Some(Orders.Sum(lines, menu, a).value + Orders.Sum(lines, menu, front).value)
    ensures Orders.Sum(lines, menu, a + (front + [last])) ==
              if Orders.Sum(lines, menu, a).None? || Orders.Sum(lines, menu, front + [last]).None? then None
              else Some(Orders.Sum(lines, menu, a).value + Orders.Sum(lines, menu, front + [last]).value)
  {
    assert a + (front + [last]) == (a + front) + [last];
    SumSnoc(lines, menu, a + front, last);
    SumSnoc(lines, menu, front, last);
  }

  /** Appending a priced line to lines whose rows are unchanged adds its value
      to their sum. */
  lemma SumAppend(lines: map<Id, OrderItem>, lines1: map<Id, OrderItem>, menu: map<Id, MenuItem>,
                  earlier: seq<Id>, n: Id)
    requires forall k :: k in earlier ==> k in lines && k in lines1 && lines1[k] == lines[k]
    requires n in lines1 && Orders.Priced(lines1, menu, n)
    requires Orders.Sum(lines, menu, earlier).Some?
    ensures Orders.Sum(lines1, menu, earlier + [n])
              == Some(Orders.Sum(lines, menu, earlier).value + Orders.LineValue(lines1, menu, n))
  {
    SumUnchanged(lines, lines1, menu, earlier);
    SumSnoc(lines1, menu, earlier, n);
  }

  /** Adding a line for an existing menu item to an order under the table's
      next id, the other lines and the menu unchanged, raises the order's
      total by the line's value. */
  lemma TotalAfterAdd(s: Store, s1: Store, orderId: Id, menuItemId: Id, quantity: Field<int>)
    requires WithNewRow(s.orderItems, s1.orderItems, s.orderItems.next,
                        OrderItem(orderId, Some(menuItemId), Stored(quantity)))
    requires s1.menuItems == s.menuItems && menuItemId in s.menuItems.rows
    requires Orders.Total(s, orderId).Some?
    ensures Orders.Total(s1, orderId)
              == Some(Orders.Total(s, orderId).value
                      + NumberOf(s.menuItems.rows[menuItemId].price) * NumberOf(Stored(quantity)))
  {
    LinesAfterAdd(s, s1, orderId, OrderItem(orderId, Some(menuItemId), Stored(quantity)));
    LineValueOf(s1.orderItems.rows, s.menuItems.rows, s.orderItems.next, orderId, menuItemId, Stored(quantity));
    SumAppend(s.orderItems.rows, s1.orderItems.rows, s.menuItems.rows, Orders.ItemsOf(s, orderId), s.orderItems.next);
  }

  /** Proof helper for `TotalAfterAdd`: a line for an existing menu item is
      priced at that item's price times its quantity. */
  lemma LineValueOf(lines: map<Id, OrderItem>, menu: map<Id, MenuItem>, k: Id, orderId: Id, menuItemId: Id,
                    quantity: Option<int>)
    requires k in lines && lines[k] == OrderItem(orderId, Some(menuItemId), quantity) && menuItemId in menu
    ensures Orders.Priced(lines, menu, k)
    ensures Orders.LineValue(lines, menu, k) == NumberOf(menu[menuItemId].price) * NumberOf(quantity)
  {
  }

  /** The same step as `getOrderById` reads it. */
  lemma ReadAfterAdd(s: Store, s1: Store, orderId: Id, menuItemId: Id, quantity: Field<int>)
    requires WithNewRow(s.orderItems, s1.orderItems, s.orderItems.next,
                        OrderItem(orderId, Some(menuItemId), Stored(quantity)))
    requires s1.menuItems == s.menuItems && s1.orders == s.orders && menuItemId in s.menuItems.rows
    requires Orders.GetOrderById(s, orderId).Ok?
    ensures var before := Orders.GetOrderById(s, orderId).value;
            Orders.GetOrderById(s1, orderId)
              == Ok((before.0, before.1 + NumberOf(s.menuItems.rows[menuItemId].price) * NumberOf(Stored(quantity))))
  {
    var before := Orders.GetOrderById(s, orderId).value;
    assert Orders.Total(s, orderId) == Some(before.1) && before.0 == s.orders.rows[orderId];
    TotalAfterAdd(s, s1, orderId, menuItemId, quantity);
    ReadTotal(s1, orderId, before.1 + NumberOf(s.menuItems.rows[menuItemId].price) * NumberOf(Stored(quantity)));
  }

  /** `createOrderItem` raises the order's total by the new line's value. */
  lemma AddLineRaisesTotal(s: Store, orderId: Id, menuItemId: Id, quantity: Field<int>)
    requires Orders.GetOrderById(s, orderId).Ok?
    requires OrderItems.CreateOrderItem(s, orderId, menuItemId, quantity).Done?
    ensures var s1 := OrderItems.CreateOrderItem(s, orderId, menuItemId, quantity).store;
            var before := Orders.GetOrderById(s, orderId).value;
            Orders.GetOrderById(s1, orderId)
              == Ok((before.0, before.1 + NumberOf(s.menuItems.rows[menuItemId].price) * NumberOf(Stored(quantity))))
  {
    ReadAfterAdd(s, OrderItems.CreateOrderItem(s, orderId, menuItemId, quantity).store, orderId, menuItemId, quantity);
  }

  /** Dropping the entry at `i` from an increasing list keeps it increasing
      and removes exactly that id. */
  lemma DropAt(ids: seq<Id>, i: nat)
    requires Increasing(ids) && i < |ids|
    ensures Increasing(ids[..i] + ids[i + 1..])
    ensures forall k :: k in ids[..i] + ids[i + 1..] <==> k in ids && k != ids[i]
  {
    var c := ids[..i] + ids[i + 1..];
    assert forall p :: 0 <= p < |c| ==> c[p] == if p < i then ids[p] else ids[p + 1];
    IncreasingPairs(ids);
    IncreasingPairs(c);
    assert ids == ids[..i] + [ids[i]] + ids[i + 1..];
  }

  /** Proof helper for `SumDropAt`: an entry splits a list into what comes
      before it and what after. */
  lemma SplitAt(ids: seq<Id>, i: nat)
    requires i < |ids|
    ensures ids == (ids[..i] + [ids[i]]) + ids[i + 1..]
    ensures forall k :: k in ids[..i] ==> k in ids
    ensures forall k :: k in ids[i + 1..] ==> k in ids
  {
  }

  /** A priced line contributes its value to the total exactly once, wherever
      it sits among the others. */
  lemma SumSplice(lines: map<Id, OrderItem>, menu: map<Id, MenuItem>, a: seq<Id>, x: Id, b: seq<Id>)
    requires forall k :: k in a ==> k in lines
    requires forall k :: k in b ==> k in lines
    requires x in lines
    requires Orders.Sum(lines, menu, (a + [x]) + b).Some?
    ensures Orders.Priced(lines, menu, x)
    ensures Orders.Sum(lines, menu, a + b)
              == Some(Orders.Sum(lines, menu, (a + [x]) + b).value - Orders.LineValue(lines, menu, x))
  {
    SumSnoc(lines, menu, a, x);
    SumConcat(lines, menu, a + [x], b);
    SumConcat(lines, menu, a, b);
  }

  /** Dropping the `i`-th line, the other rows unchanged, takes its value off
      the total. */
  lemma SumDropAt(lines: map<Id, OrderItem>, lines1: map<Id, OrderItem>, menu: map<Id, MenuItem>,
                  ids: seq<Id>, i: nat)
    requires i < |ids|
    requires forall k :: k in ids ==> k in lines
    requires forall k :: k in ids[..i] + ids[i + 1..] ==> k in lines1 && lines1[k] == lines[k]
    requires Orders.Sum(lines, menu, ids).Some?
    ensures Orders.Priced(lines, menu, ids[i])
    ensures Orders.Sum(lines1, menu, ids[..i] + ids[i + 1..])
              == Some(Orders.Sum(lines, menu, ids).value - Orders.LineValue(lines, menu, ids[i]))
  {
    SplitAt(ids, i);
    SumSplice(lines, menu, ids[..i], ids[i], ids[i + 1..]);
    SumUnchanged(lines, lines1, menu, ids[..i] + ids[i + 1..]);
  }

  /** Removing one line's row, the other rows unchanged, takes that line's
      value off the total: `rest` holds the lines of `ids` other than `x`, both
      in id order. */
  lemma SumWithoutLine(lines: map<Id, OrderItem>, lines1: map<Id, OrderItem>, menu: map<Id, MenuItem>,
                       ids: seq<Id>, rest: seq<Id>, x: Id)
    requires Increasing(ids) && Increasing(rest) && x in ids
    requires forall k :: k in rest <==> k in ids && k != x
    requires forall k :: k in ids ==> k in lines
    requires forall k :: k in rest ==> k in lines1 && lines1[k] == lines[k]
    requires Orders.Sum(lines, menu, ids).Some?
    ensures Orders.Priced(lines, menu, x)
    ensures Orders.Sum(lines1, menu, rest)
              == Some(Orders.Sum(lines, menu, ids).value - Orders.LineValue(lines, menu, x))
  {
    var i :| 0 <= i < |ids| && ids[i] == x;
    DropAt(ids, i);
    IncreasingUnique(rest, ids[..i] + ids[i + 1..]);
    SumDropAt(lines, lines1, menu, ids, i);
  }

  /** Proof helper for `TotalAfterDelete`: removing one of an order's lines
      leaves the order its other lines, with their rows unchanged. */
  lemma LinesAfterDelete(s: Store, s1: Store, line: Id, orderId: Id)
    requires line in s.orderItems.rows && s.orderItems.rows[line].orderId == orderId
    requires WithoutRow(s.orderItems, s1.orderItems, line)
    ensures line in Orders.ItemsOf(s, orderId)
    ensures forall k :: k in Orders.ItemsOf(s1, orderId) <==> k in Orders.ItemsOf(s, orderId) && k != line
    ensures forall k :: k in Orders.ItemsOf(s1, orderId) ==>
              k in s1.orderItems.rows && s1.orderItems.rows[k] == s.orderItems.rows[k]
  {
  }

  /** Removing one of an order's lines, the other lines and the menu
      unchanged, lowers the order's total by that line's value. */
  lemma TotalAfterDelete(s: Store, s1: Store, line: Id, orderId: Id)
    requires line in s.orderItems.rows && s.orderItems.rows[line].orderId == orderId
    requires WithoutRow(s.orderItems, s1.orderItems, line) && s1.menuItems == s.menuItems
    requires Orders.Total(s, orderId).Some?
    ensures Orders.Priced(s.orderItems.rows, s.menuItems.rows, line)
    ensures Orders.Total(s1, orderId)
              == Some(Orders.Total(s, orderId).value - Orders.LineValue(s.orderItems.rows, s.menuItems.rows, line))
  {
    LinesAfterDelete(s, s1, line, orderId);
    SumWithoutLine(s.orderItems.rows, s1.orderItems.rows, s.menuItems.rows,
                   Orders.ItemsOf(s, orderId), Orders.ItemsOf(s1, orderId), line);
  }

  /** The same step as `getOrderById` reads it. */
  lemma ReadAfterDelete(s: Store, s1: Store, line: Id, orderId: Id)
    requires line in s.orderItems.rows && s.orderItems.rows[line].orderId == orderId
    requires WithoutRow(s.orderItems, s1.orderItems, line)
    requires s1.menuItems == s.menuItems && s1.orders == s.orders
    requires Orders.GetOrderById(s, orderId).Ok?
    ensures Orders.Priced(s.orderItems.rows, s.menuItems.rows, line)
    ensures Orders.GetOrderById(s1, orderId)
              == Ok((s.orders.rows[orderId],
                     Orders.GetOrderById(s, orderId).value.1 - Orders.LineValue(s.orderItems.rows, s.menuItems.rows, line)))
  {
    TotalAfterDelete(s, s1, line, orderId);
    ReadTotal(s1, orderId, Orders.Total(s, orderId).value - Orders.LineValue(s.orderItems.rows, s.menuItems.rows, line));
  }

  /** `deleteOrderItem` lowers its order's total by the deleted line's value. */
  lemma DeleteLineLowersTotal(s: Store, line: Id, orderId: Id)
    requires line in s.orderItems.rows && s.orderItems.rows[line].orderId == orderId
    requires Orders.GetOrderById(s, orderId).Ok?
    ensures Orders.Priced(s.orderItems.rows, s.menuItems.rows, line)
    ensures Orders.GetOrderById(OrderItems.DeleteOrderItem(s, line).store, orderId)
              == Ok((s.orders.rows[orderId],
                     Orders.GetOrderById(s, orderId).value.1 - Orders.LineValue(s.orderItems.rows, s.menuItems.rows, line)))
  {
    ReadAfterDelete(s, OrderItems.DeleteOrderItem(s, line).store, line, orderId);
  }

  /** Proof helper for the `ReadAfter...` lemmas: `getOrderById` reports the
      order with the total its lines sum to. */
  lemma ReadTotal(s: Store, orderId: Id, total: Cents)
    requires orderId in s.orders.rows
    requires Orders.Total(s, orderId) == Some(total)
    ensures Orders.GetOrderById(s, orderId) == Ok((s.orders.rows[orderId], total))
  {
  }

  /** `deleteOrder` is final: the order is gone and so are its lines. */
  lemma DeletedOrderNotFound(s: Store, id: Id)
    requires Orders.DeleteOrder(s, id).Done?
    ensures var s1 := Orders.DeleteOrder(s, id).store;
            && Orders.GetOrderById(s1, id) == Err(NotFound)
            && Orders.ItemsOf(s1, id) == []
  {
    var s1 := Orders.DeleteOrder(s, id).store;
    IncreasingUnique(Orders.ItemsOf(s1, id), []);
  }

  /** Deleting a menu item leaves the lines that use it, so every order with
      such a line can no longer be read: its total throws. */
  lemma DeletedMenuItemBreaksOrder(s: Store, menuItemId: Id, orderId: Id, line: Id)
    requires orderId in s.orders.rows
    requires line in s.orderItems.rows
    requires s.orderItems.rows[line] == OrderItem(orderId, Some(menuItemId), s.orderItems.rows[line].quantity)
    requires MenuItems.DeleteMenuItem(s, menuItemId).Done?
    ensures Orders.GetOrderById(MenuItems.DeleteMenuItem(s, menuItemId).store, orderId) == Err(ServerError)
  {
    var s1 := MenuItems.DeleteMenuItem(s, menuItemId).store;
    assert line in Orders.ItemsOf(s1, orderId) && !Orders.Priced(s1.orderItems.rows, s1.menuItems.rows, line);
  }

  // ------------------------------------------------------------------ ratings

  /** The cascades keep the rating table's rules: removing a restaurant or an
      account leaves no rating pointing at it. */
  lemma DeletesKeepRatingsConsistent(s: Store, restaurantId: Id, userId: Id)
    requires Ratings.Consistent(s)
    ensures Admin.DeleteRestaurant(s, restaurantId).Done? ==>
              Ratings.Consistent(Admin.DeleteRestaurant(s, restaurantId).store)
    ensures Users.DeleteAccount(s, userId).Done? ==> Ratings.Consistent(Users.DeleteAccount(s, userId).store)
  {
  }

  /** Without the cascade the same delete would break the rules whenever the
      restaurant had a rating: the rating would point at nothing. */
  lemma CascadeIsNeeded(s: Store, restaurantId: Id, rating: Id)
    requires rating in s.ratings.rows && s.ratings.rows[rating].restaurantId == restaurantId
    ensures !Ratings.Consistent(s.(restaurants := Remove(s.restaurants, restaurantId)))
  {
  }
}

=== FILE: menu_items.dfy ===
/** Menu item handlers (controllers/menuItems.js). */
module MenuItems {

  import opened Js
  import opened Tables
  import opened Schema

  /** The fields of a menu item request body. */
  datatype MenuItemForm = MenuItemForm(
    name: Field<string>,
    price: Field<Cents>,
    restaurantId: Field<Id>,
    category: Field<string>,
    description: Field<string>)

  /** `Restaurant.findByPk(restaurant_id)` finds a row: a missing or null id finds none. */
  predicate NamesRestaurant(s: Store, rid: Field<Id>) {
    rid.Given? && rid.value in s.restaurants.rows
  }

  /** `createMenuItem`: the restaurant must exist; a falsy category becomes
      `"Main"` and a falsy description NULL. */
  function CreateMenuItem(s: Store, f: MenuItemForm): (r: Step<Id>)
    ensures r.Refused? <==> !NamesRestaurant(s, f.restaurantId)
    ensures r.Refused? ==> r.code == NotFound
    ensures r.Done? ==>
              && Frame(s, r.store, {MenuItems})
              && r.value == s.menuItems.next
              && r.store.menuItems.next == s.menuItems.next + 1
              && r.value in r.store.menuItems.rows
              && WithNewRow(s.menuItems, r.store.menuItems, r.value, r.store.menuItems.rows[r.value])
    ensures r.Done? ==>
              var m := r.store.menuItems.rows[r.value];
              && m.restaurantId == Some(f.restaurantId.value)
              && m.name == Stored(f.name) && m.price == Stored(f.price)
              && (Truthy(f.category, "") ==> m.category == Some(f.category.value))
              && (!Truthy(f.category, "") ==> m.category == Some("Main"))
              && (Truthy(f.description, "") ==> m.description == Some(f.description.value))
              && (!Truthy(f.description, "") ==> m.description == None)
              && m.isAvailable
  {
    if !NamesRestaurant(s, f.restaurantId) then Refused(NotFound)
    else
      var m := MenuItem(Some(f.restaurantId.value), Stored(f.name), Stored(f.price),
                        Some(Or(f.category, "", "Main")), OrNull(f.description, ""), true);
      Done(s.(menuItems := Insert(s.menuItems, m)), s.menuItems.next)
  }

  /** `getMenuItemById`. */
  function GetMenuItem(s: Store, id: Id): (r: Reply<MenuItem>)
    ensures r.Err? <==> id !in s.menuItems.rows
    ensures r.Err? ==> r.code == NotFound
    ensures r.Ok? ==> r.value == s.menuItems.rows[id]
  {
    if id !in s.menuItems.rows then Err(NotFound) else Ok(s.menuItems.rows[id])
  }

  /** `updateMenuItem`: the new restaurant is looked up only when it is truthy
      and differs from the current one. Every field sent is written, `null`
      included; omitted ones are kept. */
  function UpdateMenuItem(s: Store, id: Id, f: MenuItemForm): (r: Step<MenuItem>)
    ensures id !in s.menuItems.rows ==> r == Refused(NotFound)
    ensures id in s.menuItems.rows ==>
              (r.Refused? <==> Truthy(f.restaurantId, 0) && f.restaurantId.value !in s.restaurants.rows
                               && s.menuItems.rows[id].restaurantId != Some(f.restaurantId.value))
    ensures r.Refused? ==> r.code == NotFound
    ensures r.Done? ==>
              var m := s.menuItems.rows[id];
              && Frame(s, r.store, {MenuItems})
              && OnlyRow(s.menuItems, r.store.menuItems, id)
              && r.value == r.store.menuItems.rows[id]
              && r.value.isAvailable == m.isAvailable
              && (f.restaurantId.Absent? ==> r.value.restaurantId == m.restaurantId)
              && (!f.restaurantId.Absent? ==> r.value.restaurantId == Stored(f.restaurantId))
              && (f.name.Absent? ==> r.value.name == m.name)
              && (!f.name.Absent? ==> r.value.name == Stored(f.name))
              && (f.price.Absent? ==> r.value.price == m.price)
              && (!f.price.Absent? ==> r.value.price == Stored(f.price))
              && (f.category.Absent? ==> r.value.category == m.category)
              && (!f.category.Absent? ==> r.value.category == Stored(f.category))
              && (f.description.Absent? ==> r.value.description == m.description)
              && (!f.description.Absent? ==> r.value.description == Stored(f.description))
  {
    if id !in s.menuItems.rows then Refused(NotFound)
    else
      var m := s.menuItems.rows[id];
      if Truthy(f.restaurantId, 0) && Some(f.restaurantId.value) != m.restaurantId
         && f.restaurantId.value !in s.restaurants.rows
      then Refused(NotFound)
      else
        var m' := MenuItem(Updated(f.restaurantId, m.restaurantId), Updated(f.name, m.name),
                           Updated(f.price, m.price), Updated(f.category, m.category),
                           Updated(f.description, m.description), m.isAvailable);
        Done(s.(menuItems := Put(s.menuItems, id, m')), m')
  }

  /** `deleteMenuItem` (the admin handler of the same name does the same).
      Order lines that point at the item are left in place. */
  function DeleteMenuItem(s: Store, id: Id): (r: Step<()>)
    ensures r.Refused? <==> id !in s.menuItems.rows
    ensures r.Refused? ==> r.code == NotFound
    ensures r.Done? ==> Frame(s, r.store, {MenuItems}) && WithoutRow(s.menuItems, r.store.menuItems, id)
  {
    if id !in s.menuItems.rows then Refused(NotFound)
    else Done(s.(menuItems := Remove(s.menuItems, id)), ())
  }
}

=== FILE: order_items.dfy ===
/** Order lines edited one at a time (controllers/orderItems.js). */
module OrderItems {

  import opened Js
  import opened Tables
  import opened Schema

  /** `createOrderItem`: the order and the menu item must both exist. */
  function CreateOrderItem(s: Store, orderId: Id, menuItemId: Id, quantity: Field<int>): (r: Step<Id>)
    ensures r.Refused? <==> orderId !in s.orders.rows || menuItemId !in s.menuItems.rows
    ensures r.Refused? ==> r.code == NotFound
    ensures r.Done? ==>
              && Frame(s, r.store, {OrderItems})
              && r.value == s.orderItems.next
              && r.store.orderItems.next == s.orderItems.next + 1
              && WithNewRow(s.orderItems, r.store.orderItems, r.value,
                            OrderItem(orderId, Some(menuItemId), Stored(quantity)))
  {
    if orderId !in s.orders.rows || menuItemId !in s.menuItems.rows then Refused(NotFound)
    else
      var id := s.orderItems.next;
      Done(s.(orderItems := Insert(s.orderItems, OrderItem(orderId, Some(menuItemId), Stored(quantity)))), id)
  }

  /** `updateOrderItem`: a new menu item is looked up only when it is truthy
      and differs from the current one; `quantity` is kept only when it is
      omitted, while a falsy `menu_item_id` keeps the current one. */
  function UpdateOrderItem(s: Store, id: Id, quantity: Field<int>, menuItemId: Field<Id>): (r: Step<OrderItem>)
    ensures id !in s.orderItems.rows ==> r == Refused(NotFound)
    ensures id in s.orderItems.rows ==>
              (r.Refused? <==> Truthy(menuItemId, 0) && menuItemId.value !in s.menuItems.rows
                               && s.orderItems.rows[id].menuItemId != Some(menuItemId.value))
    ensures r.Refused? ==> r.code == NotFound
    ensures r.Done? ==>
              var item := s.orderItems.rows[id];
              && Frame(s, r.store, {OrderItems})
              && OnlyRow(s.orderItems, r.store.orderItems, id)
              && r.value == r.store.orderItems.rows[id]
              && r.value.orderId == item.orderId
              && (quantity.Absent? ==> r.value.quantity == item.quantity)
              && (quantity.Null? ==> r.value.quantity == None)
              && (quantity.Given? ==> r.value.quantity == Some(quantity.value))
              && (Truthy(menuItemId, 0) ==> r.value.menuItemId == Some(menuItemId.value))
              && (!Truthy(menuItemId, 0) ==> r.value.menuItemId == item.menuItemId)
  {
    if id !in s.orderItems.rows then Refused(NotFound)
    else
      var item := s.orderItems.rows[id];
      if Truthy(menuItemId, 0) && Some(menuItemId.value) != item.menuItemId
         && menuItemId.value !in s.menuItems.rows
      then Refused(NotFound)
      else
        var item' := item.(quantity := Updated(quantity, item.quantity),
                           menuItemId := if Truthy(menuItemId, 0) then Some(menuItemId.value) else item.menuItemId);
        Done(s.(orderItems := Put(s.orderItems, id, item')), item')
  }

  /** `deleteOrderItem`. */
  function DeleteOrderItem(s: Store, id: Id): (r: Step<()>)
    ensures r.Refused? <==> id !in s.orderItems.rows
    ensures r.Refused? ==> r.code == NotFound
    ensures r.Done? ==> Frame(s, r.store, {OrderItems}) && WithoutRow(s.orderItems, r.store.orderItems, id)
  {
    if id !in s.orderItems.rows then Refused(NotFound)
    else Done(s.(orderItems := Remove(s.orderItems, id)), ())
  }
}

=== FILE: order_status.dfy ===
/** The order's `status` column. It is a free-form string: the restaurant path
    stores whatever the client sends, so the four lifecycle values sit beside
    an open case for every other string. */
module OrderStatus {

  import Js

  datatype Status = Pending | Accepted | PickedUp | Delivered | Other(text: string)

  /** The string the column holds. */
  function Text(st: Status): string {
    match st
    case Pending => "Pending"
    case Accepted => "Accepted"
    case PickedUp => "Picked Up"
    case Delivered => "Delivered"
    case Other(s) => s
  }

  /** An `Other` value never spells one of the four lifecycle strings, so each
      string has exactly one `Status`. */
  predicate Canonical(st: Status) {
    st.Other? ==> st.text !in {"Pending", "Accepted", "Picked Up", "Delivered"}
  }

  /** The statuses a stored order can hold: one value per string. */
  type Recorded = st: Status | Canonical(st) witness Pending

  /** Reads a status string, as every comparison against the column does. */
  function Parse(s: string): (st: Status)
    ensures Text(st) == s
    ensures Canonical(st)
  {
    if s == "Pending" then Pending
    else if s == "Accepted" then Accepted
    else if s == "Picked Up" then PickedUp
    else if s == "Delivered" then Delivered
    else Other(s)
  }

  /** Writing a canonical status and reading it back gives it unchanged. */
  lemma ParseText(st: Status)
    requires Canonical(st)
    ensures Parse(Text(st)) == st
  {
  }

  /** Distinct canonical statuses are distinct strings. */
  lemma TextInjective(a: Status, b: Status)
    requires Canonical(a) && Canonical(b)
    requires Text(a) == Text(b)
    ensures a == b
  {
    ParseText(a);
    ParseText(b);
  }

  /** `validStatuses` of the courier path: the only strings a courier may write. */
  function CourierStatus(s: string): (r: Js.Option<Status>)
    ensures r.Some? <==> s in {"Accepted", "Picked Up", "Delivered"}
    ensures r.Some? ==> Text(r.value) == s && r.value in {Accepted, PickedUp, Delivered}
  {
    if s == "Accepted" then Js.Some(Accepted)
    else if s == "Picked Up" then Js.Some(PickedUp)
    else if s == "Delivered" then Js.Some(Delivered)
    else Js.None
  }
}

=== FILE: orders.dfy ===
/** The customer side of the order lifecycle (controllers/orders.js): placing an
    order with its items, reading it back with its total, the unrouted partial
    update, the two-step delete, and a customer's order history. */
module Orders {

  import opened Js
  import opened Tables
  import opened OrderStatus
  import opened Schema
  import opened Includes

  /** One element of `order_items` in the request body. */
  datatype ItemRequest = ItemRequest(menuItemId: Field<Id>, quantity: Field<int>)

  /** `order_items && Array.isArray(order_items)`: `None` when the field is
      missing or not an array, and then no items are created. */
  function ItemList(items: Option<seq<ItemRequest>>): seq<ItemRequest> {
    if items.Some? then items.value else []
  }

  /** The row `OrderItem.create` stores for one requested item. */
  function ItemRow(orderId: Id, item: ItemRequest): OrderItem {
    OrderItem(orderId, Stored(item.menuItemId), Stored(item.quantity))
  }

  /** The loop of `createOrder` over `order_items`: one row per element, in
      order, under consecutive ids. The menu items are not looked up. */
  function AddItems(t: Table<OrderItem>, orderId: Id, items: seq<ItemRequest>): (r: Table<OrderItem>)
    ensures r.next == t.next + |items|
    ensures forall k :: k in r.rows <==> k in t.rows || t.next <= k < t.next + |items|
    ensures forall k :: k in t.rows ==> r.rows[k] == t.rows[k]
    ensures forall i :: 0 <= i < |items| ==> r.rows[t.next + i] == ItemRow(orderId, items[i])
    decreases |items|
  {
    if items == [] then t
    else
      var t1 := Insert(t, ItemRow(orderId, items[0]));
      var r := AddItems(t1, orderId, items[1..]);
      assert forall i :: 1 <= i < |items| ==> items[1..][i - 1] == items[i];
      r
  }

  /** The row `createOrder` builds: the defaults of `||` (a falsy courier id is
      no courier, a falsy address is the customer's, a falsy tip is 0, a falsy
      fee is 5.00) and the status `Pending`. */
  function NewOrder(user: User, userId: Id, restaurantId: Id, courierId: Field<Id>, address: Field<string>,
                    tip: Field<Cents>, fee: Field<Cents>, now: int): (o: Order)
    ensures o.userId == userId && o.restaurantId == restaurantId
    ensures o.status == Pending && o.courierId.None? == !Truthy(courierId, 0)
    ensures Truthy(courierId, 0) ==> o.courierId == Some(courierId.value)
    ensures Truthy(address, "") ==> o.address == Some(address.value)
    ensures !Truthy(address, "") ==> o.address == user.address
    ensures Truthy(tip, 0) ==> o.tip == tip.value
    ensures !Truthy(tip, 0) ==> o.tip == 0
    ensures Truthy(fee, 0) ==> o.deliveryFee == fee.value
    ensures !Truthy(fee, 0) ==> o.deliveryFee == DefaultFee
    ensures o.orderTime == now && o.estimatedDelivery.None?
  {
    Order(userId, restaurantId, OrNull(courierId, 0),
          if Truthy(address, "") then Some(address.value) else user.address,
          Pending, now, now, None, Or(fee, 0, DefaultFee), Or(tip, 0, 0))
  }

  /** `createOrder`: the customer and the restaurant must exist; the courier
      id and the menu items are taken as given. */
  function CreateOrder(s: Store, userId: Id, restaurantId: Id, courierId: Field<Id>, address: Field<string>,
                       items: Option<seq<ItemRequest>>, tip: Field<Cents>, fee: Field<Cents>, now: int)
    : (r: Step<Id>)
    ensures r.Refused? <==> userId !in s.users.rows || restaurantId !in s.restaurants.rows
    ensures r.Refused? ==> r.code == NotFound
    ensures r.Done? ==>
              && Frame(s, r.store, {Orders, OrderItems})
              && r.value == s.orders.next
              && r.value in r.store.orders.rows
              && WithNewRow(s.orders, r.store.orders, r.value, r.store.orders.rows[r.value])
              && r.store.orders.next == s.orders.next + 1
    ensures r.Done? ==>
              var o := r.store.orders.rows[r.value];
              && o.userId == userId && o.restaurantId == restaurantId
              && o.status == Pending && o.courierId.None? == !Truthy(courierId, 0)
              && (Truthy(courierId, 0) ==> o.courierId == Some(courierId.value))
              && (Truthy(address, "") ==> o.address == Some(address.value))
              && (!Truthy(address, "") ==> o.address == s.users.rows[userId].address)
              && (Truthy(tip, 0) ==> o.tip == tip.value)
              && (!Truthy(tip, 0) ==> o.tip == 0)
              && (Truthy(fee, 0) ==> o.deliveryFee == fee.value)
              && (!Truthy(fee, 0) ==> o.deliveryFee == DefaultFee)
              && o.orderTime == now && o.estimatedDelivery.None?
    ensures r.Done? ==> r.store.orderItems == AddItems(s.orderItems, r.value, ItemList(items))
  {
    if userId !in s.users.rows || restaurantId !in s.restaurants.rows then Refused(NotFound)
    else
      var o := NewOrder(s.users.rows[userId], userId, restaurantId, courierId, address, tip, fee, now);
      var id := s.orders.next;
      Done(s.(orders := Insert(s.orders, o), orderItems := AddItems(s.orderItems, id, ItemList(items))), id)
  }

  /** The items of an order, `OrderItem.findAll({ where: { order_id } })`. */
  function ItemsOf(s: Store, orderId: Id): (ids: seq<Id>)
    ensures forall k :: k in ids <==> k in s.orderItems.rows && s.orderItems.rows[k].orderId == orderId
    ensures Increasing(ids)
  {
    Select(s.orderItems, (i: OrderItem) => i.orderId == orderId)
  }

  /** The item's menu item can be loaded; otherwise `item.MenuItem` is null and
      reading its price throws. A total reads only the order items and the
      menu, so it is stated over those two tables' rows. */
  predicate Priced(lines: map<Id, OrderItem>, menu: map<Id, MenuItem>, k: Id)
    requires k in lines
  {
    lines[k].menuItemId.Some? && lines[k].menuItemId.value in menu
  }

  /** `item.MenuItem.item_price * item.quantity`, a null operand counting as 0. */
  function LineValue(lines: map<Id, OrderItem>, menu: map<Id, MenuItem>, k: Id): Cents
    requires k in lines && Priced(lines, menu, k)
  {
    NumberOf(menu[lines[k].menuItemId.value].price) * NumberOf(lines[k].quantity)
  }

  /** The `reduce` over the order's items: the sum of their line values, or
      `None` when one of them throws. */
  function Sum(lines: map<Id, OrderItem>, menu: map<Id, MenuItem>, ids: seq<Id>): Option<Cents>
    requires forall k :: k in ids ==> k in lines
  {
    SumTo(lines, menu, ids, |ids|)
  }

  /** The `reduce` after its first `n` steps. */
  function SumTo(lines: map<Id, OrderItem>, menu: map<Id, MenuItem>, ids: seq<Id>, n: nat): Option<Cents>
    requires n <= |ids| && forall k :: k in ids ==> k in lines
  {
    if n == 0 then Some(0)
    else
      var front := SumTo(lines, menu, ids, n - 1);
      if front.None? || !Priced(lines, menu, ids[n - 1]) then None
      else Some(front.value + LineValue(lines, menu, ids[n - 1]))
  }

  lemma {:induction false} SumToFails(lines: map<Id, OrderItem>, menu: map<Id, MenuItem>, ids: seq<Id>, n: nat)
    requires n <= |ids| && forall k :: k in ids ==> k in lines
    ensures SumTo(lines, menu, ids, n).None? <==> exists i :: 0 <= i < n && !Priced(lines, menu, ids[i])
  {
    if n > 0 {
      SumToFails(lines, menu, ids, n - 1);
    }
  }

  /** `Sum` is `None` exactly when some item has no menu item to price it. */
  lemma SumFailsOnUnpriced(lines: map<Id, OrderItem>, menu: map<Id, MenuItem>, ids: seq<Id>)
    requires forall k :: k in ids ==> k in lines
    ensures Sum(lines, menu, ids).None? <==> exists k :: k in ids && !Priced(lines, menu, k)
  {
    SumToFails(lines, menu, ids, |ids|);
  }

  /** The total of an order's items in a store. */
  function Total(s: Store, id: Id): Option<Cents> {
    Sum(s.orderItems.rows, s.menuItems.rows, ItemsOf(s, id))
  }

  /** `getOrderById`: the order and the total of its items. */
  function GetOrderById(s: Store, id: Id): (r: Reply<(Order, Cents)>)
    ensures id !in s.orders.rows ==> r == Err(NotFound)
    ensures id in s.orders.rows ==>
              (r.Err? <==> exists k :: k in ItemsOf(s, id) && !Priced(s.orderItems.rows, s.menuItems.rows, k))
    ensures id in s.orders.rows && r.Err? ==> r.code == ServerError
    ensures r.Ok? ==> r.value.0 == s.orders.rows[id] && Total(s, id) == Some(r.value.1)
  {
    if id !in s.orders.rows then Err(NotFound)
    else
      var total := Total(s, id);
      SumFailsOnUnpriced(s.orderItems.rows, s.menuItems.rows, ItemsOf(s, id));
      if total.None? then Err(ServerError) else Ok((s.orders.rows[id], total.value))
  }

  /** The include list of `getOrderById` as written: `User` and `Courier`
      without the aliases their only associations with Order declare. */
  const GetOrderByIdIncludes: seq<Include> :=
    [Include(UserModel, None), Include(RestaurantModel, None), Include(CourierModel, None),
     Include(OrderItemModel, None)]

  /** `getOrderById` as written: the include list is resolved before the
      order is looked up. */
  function GetOrderByIdAsWritten(s: Store, id: Id): (r: Reply<(Order, Cents)>)
    ensures r == GetOrderById(s, id) || r == Err(ServerError)
  {
    Load(GetOrderByIdIncludes, GetOrderById(s, id))
  }

  /** As written, `getOrderById` answers 500 to every request: neither its 404
      nor its total can be reached. */
  lemma GetOrderByIdAlwaysFails(s: Store, id: Id)
    ensures GetOrderByIdAsWritten(s, id) == Err(ServerError)
  {
    MissingAliasFails(GetOrderByIdIncludes, 0, GetOrderById(s, id));
  }

  /** The same list with `customer` and `courier` added. */
  const GetOrderByIdAliased: seq<Include> :=
    [Include(UserModel, Some("customer")), Include(RestaurantModel, None), Include(CourierModel, Some("courier")),
     Include(OrderItemModel, None)]

  /** With the aliases in place the read is `GetOrderById`, the intended
      behaviour the rest of the model uses. */
  lemma GetOrderByIdWithAliases(s: Store, id: Id)
    ensures Load(GetOrderByIdAliased, GetOrderById(s, id)) == GetOrderById(s, id)
    ensures id in s.orders.rows && Total(s, id).Some? ==>
              Load(GetOrderByIdAliased, GetOrderById(s, id)) == Ok((s.orders.rows[id], Total(s, id).value))
  {
    assert AllResolve(GetOrderByIdAliased) by {
      forall i | 0 <= i < |GetOrderByIdAliased|
        ensures Resolves(GetOrderByIdAliased[i])
      {
      }
    }
  }

  /** `updateOrderStatus` of orders.js (no route reaches it): copies `status`,
      `courier_id` and `estimated_delivery_time` only when the value sent is
      truthy; no check on the current status or on the courier. */
  function UpdateOrder(s: Store, id: Id, status: Field<string>, courierId: Field<Id>, eta: Field<int>, now: int)
    : (r: Step<Order>)
    ensures r.Refused? <==> id !in s.orders.rows
    ensures r.Refused? ==> r.code == NotFound
    ensures r.Done? ==>
              var o := s.orders.rows[id];
              && Frame(s, r.store, {Orders})
              && OnlyRow(s.orders, r.store.orders, id)
              && r.value == r.store.orders.rows[id]
              && (Truthy(status, "") ==> Text(r.value.status) == status.value)
              && (!Truthy(status, "") ==> r.value.status == o.status)
              && (Truthy(courierId, 0) ==> r.value.courierId == Some(courierId.value))
              && (!Truthy(courierId, 0) ==> r.value.courierId == o.courierId)
              && (Truthy(eta, 0) ==> r.value.estimatedDelivery == Some(eta.value))
              && (!Truthy(eta, 0) ==> r.value.estimatedDelivery == o.estimatedDelivery)
              && r.value.(status := o.status, courierId := o.courierId,
                          estimatedDelivery := o.estimatedDelivery, updatedAt := o.updatedAt) == o
              && r.value.updatedAt == (if r.value.(updatedAt := o.updatedAt) == o then o.updatedAt else now)
  {
    if id !in s.orders.rows then Refused(NotFound)
    else
      var o := s.orders.rows[id];
      var o1 := if Truthy(status, "") then o.(status := Parse(status.value)) else o;
      var o2 := if Truthy(courierId, 0) then o1.(courierId := Some(courierId.value)) else o1;
      var o3 := if Truthy(eta, 0) then o2.(estimatedDelivery := Some(eta.value)) else o2;
      var s' := SaveOrder(s, id, o3, now);
      Done(s', s'.orders.rows[id])
  }

  /** `deleteOrder`: first every item of the order, then the order itself. */
  function DeleteOrder(s: Store, id: Id): (r: Step<()>)
    ensures r.Refused? <==> id !in s.orders.rows
    ensures r.Refused? ==> r.code == NotFound
    ensures r.Done? ==>
              && Frame(s, r.store, {Orders, OrderItems})
              && WithoutRow(s.orders, r.store.orders, id)
              && r.store.orderItems.next == s.orderItems.next
              && (forall k :: k in r.store.orderItems.rows <==>
                    k in s.orderItems.rows && s.orderItems.rows[k].orderId != id)
              && (forall k :: k in r.store.orderItems.rows ==> r.store.orderItems.rows[k] == s.orderItems.rows[k])
  {
    if id !in s.orders.rows then Refused(NotFound)
    else
      var items' := RemoveWhere(s.orderItems, (i: OrderItem) => i.orderId == id);
      Done(s.(orderItems := items', orders := Remove(s.orders, id)), ())
  }

  /** `getOrdersByUser`: every order the customer placed, newest first. */
  function OrdersByUser(s: Store, userId: Id): (r: Reply<seq<Id>>)
    ensures r.Err? <==> userId !in s.users.rows
    ensures r.Err? ==> r.code == NotFound
    ensures r.Ok? ==>
              && Distinct(r.value)
              && (forall k :: k in r.value <==> k in s.orders.rows && s.orders.rows[k].userId == userId)
              && (forall i, j :: 0 <= i < j < |r.value| ==>
                    s.orders.rows[r.value[i]].orderTime >= s.orders.rows[r.value[j]].orderTime)
  {
    if userId !in s.users.rows then Err(NotFound)
    else
      var matching := Select(s.orders, (o: Order) => o.userId == userId);
      IncreasingIsDistinct(matching);
      var sorted := SortOn(matching, NewestFirst(s));
      assert forall i :: 0 <= i < |sorted| ==> sorted[i] in s.orders.rows;
      Ok(sorted)
  }

  /** The include list of `getOrdersByUser`: the restaurant and the items
      without `as`, the courier as `courier`. */
  const OrdersByUserIncludes: seq<Include> :=
    [Include(RestaurantModel, None), Include(CourierModel, Some("courier")), Include(OrderItemModel, None)]

  /** `getOrdersByUser` as written: the customer is looked up without
      includes, then the orders with them. */
  function OrdersByUserAsWritten(s: Store, userId: Id): (r: Reply<seq<Id>>)
    ensures userId !in s.users.rows ==> r == Err(NotFound)
    ensures userId in s.users.rows && AllResolve(OrdersByUserIncludes) ==> r == OrdersByUser(s, userId)
  {
    if userId !in s.users.rows then Err(NotFound) else Load(OrdersByUserIncludes, OrdersByUser(s, userId))
  }

  /** Every include of `getOrdersByUser` resolves, the items through their
      unaliased association, so the handler as written answers `OrdersByUser`. */
  lemma OrdersByUserResolves(s: Store, userId: Id)
    ensures OrdersByUserAsWritten(s, userId) == OrdersByUser(s, userId)
  {
    assert AllResolve(OrdersByUserIncludes) by {
      forall i | 0 <= i < |OrdersByUserIncludes|
        ensures Resolves(OrdersByUserIncludes[i])
      {
      }
    }
  }
}

=== FILE: ratings.dfy ===
/** The Rating table's own rules (models/rating.model.js): both references and
    the score are required, the score lies in 1..5, a user rates a restaurant
    at most once, and both references cascade on delete. */
module Ratings {

  import opened Js
  import opened Tables
  import opened Schema

  const MinScore: int := 1
  const MaxScore: int := 5

  /** Why the database refuses a rating row. */
  datatype Violation = NullColumn | ScoreOutOfRange | DuplicatePair | MissingParent

  datatype Insertion = Inserted(store: Store, id: Id) | Rejected(violation: Violation)

  predicate PairTaken(s: Store, restaurantId: Id, userId: Id) {
    exists k :: k in s.ratings.rows && s.ratings.rows[k].restaurantId == restaurantId
                && s.ratings.rows[k].userId == userId
  }

  /** What the table's constraints keep true of every state. */
  predicate Consistent(s: Store) {
    && (forall k :: k in s.ratings.rows ==> MinScore <= s.ratings.rows[k].score <= MaxScore)
    && (forall k :: k in s.ratings.rows ==>
          s.ratings.rows[k].restaurantId in s.restaurants.rows && s.ratings.rows[k].userId in s.users.rows)
    && (forall j, k :: j in s.ratings.rows && k in s.ratings.rows && j != k ==>
          s.ratings.rows[j].restaurantId != s.ratings.rows[k].restaurantId
          || s.ratings.rows[j].userId != s.ratings.rows[k].userId)
  }

  /** `Rating.create(...)`: Sequelize checks `allowNull` and the score range
      before the insert; the unique index and the foreign keys are checked by
      the database. */
  function InsertRating(s: Store, restaurantId: Option<Id>, userId: Option<Id>, score: Option<int>)
    : (r: Insertion)
    ensures restaurantId.None? || userId.None? || score.None? ==> r == Rejected(NullColumn)
    ensures r.Inserted? <==>
              && restaurantId.Some? && userId.Some? && score.Some?
              && MinScore <= score.value <= MaxScore
              && !PairTaken(s, restaurantId.value, userId.value)
              && restaurantId.value in s.restaurants.rows && userId.value in s.users.rows
    ensures r.Inserted? ==>
              && Frame(s, r.store, {Ratings})
              && r.store.ratings.next == s.ratings.next + 1
              && WithNewRow(s.ratings, r.store.ratings, r.id, Rating(restaurantId.value, userId.value, score.value))
  {
    if restaurantId.None? || userId.None? || score.None? then Rejected(NullColumn)
    else if !(MinScore <= score.value <= MaxScore) then Rejected(ScoreOutOfRange)
    else if PairTaken(s, restaurantId.value, userId.value) then Rejected(DuplicatePair)
    else if restaurantId.value !in s.restaurants.rows || userId.value !in s.users.rows then Rejected(MissingParent)
    else
      var row := Rating(restaurantId.value, userId.value, score.value);
      Inserted(s.(ratings := Insert(s.ratings, row)), s.ratings.next)
  }

  /** The two references of a rating, each declared `ON DELETE CASCADE`. */
  datatype Parent = OfRestaurant | OfUser

  predicate RefersTo(x: Rating, parent: Parent, id: Id) {
    match parent
    case OfRestaurant => x.restaurantId == id
    case OfUser => x.userId == id
  }

  /** The cascade when the parent row `id` is deleted: its ratings go with it. */
  function Cascade(t: Table<Rating>, parent: Parent, id: Id): (r: Table<Rating>)
    ensures forall k :: k in r.rows <==> k in t.rows && !RefersTo(t.rows[k], parent, id)
    ensures forall k :: k in r.rows ==> r.rows[k] == t.rows[k]
    ensures r.next == t.next
  {
    RemoveWhere(t, (x: Rating) => RefersTo(x, parent, id))
  }

  /** Every insert the table accepts keeps its rules. */
  lemma InsertKeepsConsistent(s: Store, restaurantId: Option<Id>, userId: Option<Id>, score: Option<int>)
    requires Consistent(s)
    ensures InsertRating(s, restaurantId, userId, score).Inserted? ==>
              Consistent(InsertRating(s, restaurantId, userId, score).store)
  {
    var r := InsertRating(s, restaurantId, userId, score);
    if r.Inserted? {
      var t := r.store.ratings;
      forall j, k | j in t.rows && k in t.rows && j != k
        ensures t.rows[j].restaurantId != t.rows[k].restaurantId || t.rows[j].userId != t.rows[k].userId
      {
        if j != r.id && k != r.id {
          assert t.rows[j] == s.ratings.rows[j] && t.rows[k] == s.ratings.rows[k];
        } else if j == r.id {
          assert t.rows[k] == s.ratings.rows[k];
        } else {
          assert t.rows[j] == s.ratings.rows[j];
        }
      }
    }
  }

  /** A second rating for the same pair is refused, as a duplicate when its
      score is in range, and the first stays as it was. */
  lemma SecondRatingRejected(s: Store, restaurantId: Id, userId: Id, first: int, second: int)
    requires InsertRating(s, Some(restaurantId), Some(userId), Some(first)).Inserted?
    ensures var r := InsertRating(s, Some(restaurantId), Some(userId), Some(first));
            && !InsertRating(r.store, Some(restaurantId), Some(userId), Some(second)).Inserted?
            && (MinScore <= second <= MaxScore ==>
                  InsertRating(r.store, Some(restaurantId), Some(userId), Some(second)) == Rejected(DuplicatePair))
            && r.store.ratings.rows[r.id].score == first
  {
    var r := InsertRating(s, Some(restaurantId), Some(userId), Some(first));
    assert r.store.ratings.rows[r.id] == Rating(restaurantId, userId, first);
    assert PairTaken(r.store, restaurantId, userId);
  }
}

=== FILE: restaurants.dfy ===
/** The public restaurant handlers and the restaurant's own status write on an
    order (controllers/restaurants.js). */
module Restaurants {

  import opened Js
  import opened Tables
  import opened OrderStatus
  import opened Schema

  /** `getAllRestaurants`: every restaurant, approved or not. */
  function AllRestaurants(s: Store): (r: seq<Id>)
    ensures Distinct(r)
    ensures forall k :: k in r <==> k in s.restaurants.rows
  {
    var ids := Select(s.restaurants, (x: Restaurant) => true);
    IncreasingIsDistinct(ids);
    ids
  }

  /** `getRestaurantById`. */
  function RestaurantById(s: Store, id: Id): (r: Reply<Restaurant>)
    ensures r.Err? <==> id !in s.restaurants.rows
    ensures r.Err? ==> r.code == NotFound
    ensures r.Ok? ==> r.value == s.restaurants.rows[id]
  {
    if id !in s.restaurants.rows then Err(NotFound) else Ok(s.restaurants.rows[id])
  }

  /** `getRestaurantMenu`: the restaurant and exactly the menu items that point at it. */
  function RestaurantMenu(s: Store, id: Id): (r: Reply<(Restaurant, seq<Id>)>)
    ensures r.Err? <==> id !in s.restaurants.rows
    ensures r.Err? ==> r.code == NotFound
    ensures r.Ok? ==>
              && r.value.0 == s.restaurants.rows[id]
              && Distinct(r.value.1)
              && forall k :: k in r.value.1 <==>
                   k in s.menuItems.rows && s.menuItems.rows[k].restaurantId == Some(id)
  {
    if id !in s.restaurants.rows then Err(NotFound)
    else
      var ids := Select(s.menuItems, (m: MenuItem) => m.restaurantId == Some(id));
      IncreasingIsDistinct(ids);
      Ok((s.restaurants.rows[id], ids))
  }

  /** `acceptOrder` of the restaurant path: overwrites the status of one of the
      restaurant's orders with the string sent, `"Accepted"` when it is falsy.
      The current status and the courier are not looked at, and the caller's
      identity is not checked. */
  function AcceptOrder(s: Store, restaurantId: Id, orderId: Id, status: Field<string>, now: int)
    : (r: Step<Order>)
    ensures r.Refused? <==>
              restaurantId !in s.restaurants.rows || orderId !in s.orders.rows
              || s.orders.rows[orderId].restaurantId != restaurantId
    ensures r.Refused? ==> r.code == NotFound
    ensures r.Done? ==>
              var o := s.orders.rows[orderId];
              && Frame(s, r.store, {Orders})
              && OnlyRow(s.orders, r.store.orders, orderId)
              && r.value == r.store.orders.rows[orderId]
              && (Truthy(status, "") ==> Text(r.value.status) == status.value)
              && (!Truthy(status, "") ==> r.value.status == Accepted)
              && r.value.(status := o.status, updatedAt := o.updatedAt) == o
              && r.value.updatedAt == (if r.value.status == o.status then o.updatedAt else now)
  {
    if restaurantId !in s.restaurants.rows then Refused(NotFound)
    else if orderId !in s.orders.rows || s.orders.rows[orderId].restaurantId != restaurantId then Refused(NotFound)
    else
      var o := s.orders.rows[orderId];
      var s' := SaveOrder(s, orderId, o.(status := Parse(Or(status, "", "Accepted"))), now);
      Done(s', s'.orders.rows[orderId])
  }
}

=== FILE: schema.dfy ===
/** The records the controllers read and write, the store that holds them, and
    the outcome of a handler. Fields follow the controllers, which use columns
    the model definitions leave out (`isActive`/`isApproved` on Courier,
    `isapproved` on Restaurant, the role flags on User). */
module Schema {

  import opened Js
  import opened Tables
  import opened OrderStatus

  /** Money in cents: the fee and tip are DECIMAL(10, 2), prices FLOAT. */
  type Cents = int

  /** The delivery fee an order gets when none (or a falsy one) is supplied: 5.00. */
  const DefaultFee: Cents := 500

  /** The number of past orders listed when no usable limit is supplied. */
  const DefaultLimit: nat := 10

  /** `password` holds the bcrypt hash, never the password itself. */
  datatype User = User(
    name: Option<string>,
    email: Option<string>,
    password: string,
    phone: Option<string>,
    address: Option<string>,
    isAdmin: bool,
    isCourier: bool,
    isRestaurant: bool)

  /** `approved` is the `isapproved` column; it can hold NULL. */
  datatype Restaurant = Restaurant(
    ownerId: Id,
    name: Option<string>,
    address: Option<string>,
    phone: Option<string>,
    email: Option<string>,
    cuisineType: Option<string>,
    details: Option<string>,
    approved: Option<bool>)

  /** Every reader of `isActive`/`isApproved` tests truthiness only, so a NULL
      and a `false` in those columns are both kept as `false`. */
  datatype Vehicle = Vehicle(
    make: Option<string>,
    model: Option<string>,
    year: Option<int>,
    plate: Option<string>,
    colour: Option<string>)

  datatype Courier = Courier(
    userId: Id,
    name: Option<string>,
    email: Option<string>,
    phone: Option<string>,
    address: Option<string>,
    vehicle: Vehicle,
    city: Option<string>,
    isActive: bool,
    isApproved: bool)

  datatype MenuItem = MenuItem(
    restaurantId: Option<Id>,
    name: Option<string>,
    price: Option<Cents>,
    category: Option<string>,
    description: Option<string>,
    isAvailable: bool)

  /** `orderTime` and `updatedAt` are instants on an abstract clock. */
  datatype Order = Order(
    userId: Id,
    restaurantId: Id,
    courierId: Option<Id>,
    address: Option<string>,
    status: Recorded,
    orderTime: int,
    updatedAt: int,
    estimatedDelivery: Option<int>,
    deliveryFee: Cents,
    tip: Cents)

  datatype OrderItem = OrderItem(orderId: Id, menuItemId: Option<Id>, quantity: Option<int>)

  datatype Rating = Rating(restaurantId: Id, userId: Id, score: int)

  datatype Store = Store(
    users: Table<User>,
    restaurants: Table<Restaurant>,
    couriers: Table<Courier>,
    menuItems: Table<MenuItem>,
    orders: Table<Order>,
    orderItems: Table<OrderItem>,
    ratings: Table<Rating>)

  /** The status codes the handlers answer with besides success. `ServerError`
      is the 500 of a handler's `catch` block. */
  datatype Code = BadRequest | Unauthorized | NotFound | ServerError

  /** The outcome of a handler that only reads. */
  datatype Reply<+T> = Ok(value: T) | Err(code: Code)

  /** The outcome of a handler that may write: the new store and the value it
      answers with, or a refusal that leaves the store as it was. */
  datatype Step<+T> = Done(store: Store, value: T) | Refused(code: Code)

  datatype Name = Users | Restaurants | Couriers | MenuItems | Orders | OrderItems | Ratings

  /** Every table not named in `touched` is the same in `s'` as in `s`. */
  predicate Frame(s: Store, s': Store, touched: set<Name>) {
    && (Users !in touched ==> s'.users == s.users)
    && (Restaurants !in touched ==> s'.restaurants == s.restaurants)
    && (Couriers !in touched ==> s'.couriers == s.couriers)
    && (MenuItems !in touched ==> s'.menuItems == s.menuItems)
    && (Orders !in touched ==> s'.orders == s.orders)
    && (OrderItems !in touched ==> s'.orderItems == s.orderItems)
    && (Ratings !in touched ==> s'.ratings == s.ratings)
  }

  /** `t'` differs from `t` in the row `k` at most: same keys, same other rows. */
  predicate OnlyRow<T(==)>(t: Table<T>, t': Table<T>, k: Id) {
    && t'.rows.Keys == t.rows.Keys
    && t'.next == t.next
    && forall j :: j in t.rows && j != k ==> t'.rows[j] == t.rows[j]
  }

  /** `t'` is `t` with the row `k` deleted and nothing else changed. */
  predicate WithoutRow<T(==)>(t: Table<T>, t': Table<T>, k: Id) {
    && t'.rows.Keys == t.rows.Keys - {k}
    && t'.next == t.next
    && forall j :: j in t'.rows ==> t'.rows[j] == t.rows[j]
  }

  /** `t'` is `t` with one row `v` added under a key no earlier row used. */
  predicate WithNewRow<T(==)>(t: Table<T>, t': Table<T>, k: Id, v: T) {
    && k !in t.rows
    && t'.rows.Keys == t.rows.Keys + {k}
    && t'.rows[k] == v
    && forall j :: j in t.rows ==> t'.rows[j] == t.rows[j]
  }

  /** Sort key for `order: [["order_time", "ASC"]]`. */
  function OldestFirst(s: Store): Id -> int {
    k => if k in s.orders.rows then s.orders.rows[k].orderTime else 0
  }

  /** Sort key for `order: [["order_time", "DESC"]]`. */
  function NewestFirst(s: Store): Id -> int {
    k => if k in s.orders.rows then -s.orders.rows[k].orderTime else 0
  }

  /** Sort key for `order: [["updatedAt", "DESC"]]`. */
  function LatestUpdateFirst(s: Store): Id -> int {
    k => if k in s.orders.rows then -s.orders.rows[k].updatedAt else 0
  }

  /** Sequelize saves (and stamps `updatedAt`) only when some column changed. */
  function Touch(o: Order, o': Order, now: int): (r: Order)
    ensures r.updatedAt == (if o' == o then o.updatedAt else now)
    ensures r.(updatedAt := o'.updatedAt) == o'
  {
    if o' == o then o else o'.(updatedAt := now)
  }

  /** Writes an updated order back, as `order.update(...)` does. */
  function SaveOrder(s: Store, id: Id, o': Order, now: int): (s': Store)
    requires id in s.orders.rows
    ensures Frame(s, s', {Orders})
    ensures OnlyRow(s.orders, s'.orders, id)
    ensures s'.orders.rows[id] == Touch(s.orders.rows[id], o', now)
  {
    s.(orders := Put(s.orders, id, Touch(s.orders.rows[id], o', now)))
  }
}

=== FILE: tables.dfy ===
/** One database table with an auto-incremented integer primary key, and the
    generic queries the handlers run against it: `findAll` with a `where`
    filter, `order` by one column, and `limit`. */
module Tables {

  /** A primary key. */
  type Id = nat

  datatype Rows<T> = Rows(rows: map<Id, T>, next: Id)

  /** The table's sequence is ahead of every key, so `next` is always fresh
      and a deleted id is never handed out again. */
  type Table<T> = t: Rows<T> | forall k :: k in t.rows ==> k < t.next
    witness Rows(map[], 1)

  /** `Model.create(v)`: the row gets the sequence's next value. */
  function Insert<T>(t: Table<T>, v: T): (r: Table<T>)
    ensures t.next !in t.rows
    ensures r.rows.Keys == t.rows.Keys + {t.next}
    ensures r.rows[t.next] == v
    ensures forall k :: k in t.rows ==> r.rows[k] == t.rows[k]
    ensures r.next == t.next + 1
  {
    Rows(t.rows[t.next := v], t.next + 1)
  }

  /** `instance.update(...)` on a row that exists. */
  function Put<T>(t: Table<T>, k: Id, v: T): (r: Table<T>)
    requires k in t.rows
    ensures r.rows.Keys == t.rows.Keys && r.next == t.next
    ensures r.rows[k] == v
    ensures forall j :: j in t.rows && j != k ==> r.rows[j] == t.rows[j]
  {
    Rows(t.rows[k := v], t.next)
  }

  /** `instance.destroy()`. */
  function Remove<T>(t: Table<T>, k: Id): (r: Table<T>)
    ensures r.rows.Keys == t.rows.Keys - {k} && r.next == t.next
    ensures forall j :: j in r.rows ==> r.rows[j] == t.rows[j]
  {
    Rows(t.rows - {k}, t.next)
  }

  /** `Model.destroy({ where })`: deletes every row the filter matches. */
  function RemoveWhere<T>(t: Table<T>, drop: T -> bool): (r: Table<T>)
    ensures forall k :: k in r.rows <==> k in t.rows && !drop(t.rows[k])
    ensures forall k :: k in r.rows ==> r.rows[k] == t.rows[k]
    ensures r.next == t.next
  {
    Rows(map k | k in t.rows && !drop(t.rows[k]) :: t.rows[k], t.next)
  }

  /** Strictly increasing, hence free of duplicates. The pairs are compared
      through `Below` so that the fact is only put to use where a proof asks
      for it (`IncreasingPairs`). */
  predicate Increasing(ids: seq<Id>) {
    forall i, j {:trigger Below(ids[i], ids[j])} :: 0 <= i < j < |ids| ==> Below(ids[i], ids[j])
  }

  predicate Below(a: Id, b: Id) {
    a < b
  }

  /** Proof helper: `Increasing`, stated on the ids themselves. */
  lemma IncreasingPairs(ids: seq<Id>)
    ensures Increasing(ids) <==> forall i, j :: 0 <= i < j < |ids| ==> ids[i] < ids[j]
  {
    if Increasing(ids) {
      forall i, j | 0 <= i < j < |ids|
        ensures ids[i] < ids[j]
      {
        assert Below(ids[i], ids[j]);
      }
    }
  }

  predicate Distinct(ids: seq<Id>) {
    forall i, j :: 0 <= i < j < |ids| ==> ids[i] != ids[j]
  }

  /** Ordered by a column, smallest first; ties in any order. */
  predicate SortedOn(ids: seq<Id>, key: Id -> int) {
    forall i, j :: 0 <= i < j < |ids| ==> key(ids[i]) <= key(ids[j])
  }

  /** The ids below `n` whose rows pass the filter, in id order. */
  function SelectBelow<T>(rows: map<Id, T>, keep: T -> bool, n: nat): (ids: seq<Id>)
    ensures forall k :: k in ids <==> k < n && k in rows && keep(rows[k])
    ensures Increasing(ids)
    ensures forall i :: 0 <= i < |ids| ==> ids[i] < n
  {
    if n == 0 then []
    else
      var prefix := SelectBelow(rows, keep, n - 1);
      if n - 1 in rows && keep(rows[n - 1]) then prefix + [n - 1] else prefix
  }

  /** `Model.findAll({ where })`: every row the filter matches, each once. */
  function Select<T>(t: Table<T>, keep: T -> bool): (ids: seq<Id>)
    ensures forall k :: k in ids <==> k in t.rows && keep(t.rows[k])
    ensures Increasing(ids)
  {
    SelectBelow(t.rows, keep, t.next)
  }

  /** Inserts `x` into a sorted sequence after every element with a smaller key. */
  function InsertSorted(x: Id, ids: seq<Id>, key: Id -> int): (r: seq<Id>)
    requires SortedOn(ids, key)
    ensures multiset(r) == multiset(ids) + multiset{x}
    ensures forall y :: y in r <==> y in ids || y == x
    ensures SortedOn(r, key)
    ensures Distinct(ids) && x !in ids ==> Distinct(r)
  {
    if ids == [] then [x]
    else if key(x) <= key(ids[0]) then
      HeadIsLeast(ids, key);
      ConsSorted(x, ids, key);
      ConsDistinct(x, ids);
      [x] + ids
    else
      var tail := ids[1..];
      assert ids == [ids[0]] + tail;
      DistinctTail(ids);
      var rest := InsertSorted(x, tail, key);
      HeadIsLeast(ids, key);
      assert forall y :: y in rest ==> key(ids[0]) <= key(y);
      ConsSorted(ids[0], rest, key);
      ConsDistinct(ids[0], rest);
      [ids[0]] + rest
  }

  lemma DistinctTail(ids: seq<Id>)
    requires ids != []
    ensures Distinct(ids) ==> Distinct(ids[1..]) && ids[0] !in ids[1..]
  {
    if Distinct(ids) {
      var tail := ids[1..];
      forall i, j | 0 <= i < j < |tail|
        ensures tail[i] != tail[j]
      {
        assert tail[i] == ids[i + 1] && tail[j] == ids[j + 1];
      }
    }
  }

  lemma HeadIsLeast(ids: seq<Id>, key: Id -> int)
    requires SortedOn(ids, key) && ids != []
    ensures forall y :: y in ids ==> key(ids[0]) <= key(y)
  {
    forall y | y in ids
      ensures key(ids[0]) <= key(y)
    {
      var j :| 0 <= j < |ids| && ids[j] == y;
      if j > 0 {
        assert key(ids[0]) <= key(ids[j]);
      }
    }
  }

  lemma ConsSorted(a: Id, rest: seq<Id>, key: Id -> int)
    requires SortedOn(rest, key)
    requires forall y :: y in rest ==> key(a) <= key(y)
    ensures SortedOn([a] + rest, key)
  {
    var r := [a] + rest;
    forall i, j | 0 <= i < j < |r|
      ensures key(r[i]) <= key(r[j])
    {
      if i == 0 {
        assert r[j] == rest[j - 1];
      } else {
        assert r[i] == rest[i - 1] && r[j] == rest[j - 1];
      }
    }
  }

  lemma ConsDistinct(a: Id, rest: seq<Id>)
    ensures Distinct(rest) && a !in rest ==> Distinct([a] + rest)
  {
    var r := [a] + rest;
    if Distinct(rest) && a !in rest {
      forall i, j | 0 <= i < j < |r|
        ensures r[i] != r[j]
      {
        assert r[j] == rest[j - 1];
        if i > 0 {
          assert r[i] == rest[i - 1];
        }
      }
    }
  }

  /** `order: [[column, "ASC"]]`: the same ids, ordered by `key`. */
  function SortOn(ids: seq<Id>, key: Id -> int): (r: seq<Id>)
    ensures multiset(r) == multiset(ids)
    ensures forall y :: y in r <==> y in ids
    ensures SortedOn(r, key)
    ensures Distinct(ids) ==> Distinct(r)
  {
    if ids == [] then []
    else
      assert ids == [ids[0]] + ids[1..];
      InsertSorted(ids[0], SortOn(ids[1..], key), key)
  }

  /** `limit: n` for a non-negative `n`. */
  function Take(ids: seq<Id>, n: nat): (r: seq<Id>)
    ensures |r| == if n < |ids| then n else |ids|
    ensures r <= ids
    ensures forall i :: 0 <= i < |ids| && i < n ==> ids[i] in r
  {
    if n < |ids| then ids[..n] else ids
  }

  /** An increasing sequence is fixed by its elements: two increasing
      sequences holding the same ids are equal. So a `findAll` result in key
      order is determined by which rows match. */
  lemma BothEmptyOrNeither(a: seq<Id>, b: seq<Id>)
    requires forall k :: k in a <==> k in b
    ensures a == [] <==> b == []
  {
    if a != [] {
      assert a[0] in b;
    }
    if b != [] {
      assert b[0] in a;
    }
  }

  lemma {:induction false} IncreasingUnique(a: seq<Id>, b: seq<Id>)
    requires Increasing(a) && Increasing(b)
    requires forall k :: k in a <==> k in b
    ensures a == b
  {
    BothEmptyOrNeither(a, b);
    if a != [] {
      IncreasingTail(a);
      IncreasingTail(b);
      assert a[0] in b && b[0] in a;
      assert b[0] == a[0];
      forall k
        ensures k in a[1..] <==> k in b[1..]
      {
        assert k in a[1..] <==> k in a && k != a[0];
        assert k in b[1..] <==> k in b && k != b[0];
      }
      IncreasingUnique(a[1..], b[1..]);
      assert a == [a[0]] + a[1..] && b == [b[0]] + b[1..];
    }
  }

  /** Proof helper for `IncreasingUnique`: the head of an increasing list is
      below the rest, which is increasing. */
  lemma IncreasingTail(ids: seq<Id>)
    requires Increasing(ids) && ids != []
    ensures Increasing(ids[1..])
    ensures forall k :: k in ids[1..] <==> k in ids && k != ids[0]
    ensures forall k :: k in ids[1..] ==> ids[0] < k
  {
    assert ids == [ids[0]] + ids[1..];
    forall k | k in ids[1..]
      ensures ids[0] < k
    {
      var j :| 0 <= j < |ids| - 1 && ids[1..][j] == k;
      assert Below(ids[0], ids[j + 1]);
    }
    forall i, j | 0 <= i < j < |ids| - 1
      ensures Below(ids[1..][i], ids[1..][j])
    {
      assert Below(ids[i + 1], ids[j + 1]);
    }
  }

  lemma IncreasingIsDistinct(ids: seq<Id>)
    requires Increasing(ids)
    ensures Distinct(ids)
  {
    IncreasingPairs(ids);
  }
}

=== FILE: users.dfy ===
/** The store effects of the account handlers (controllers/users.js). Token
    signing and cookies are left out; bcrypt enters as the hash value it
    produced (`hashed`) and as a verification relation (`verify`). */
module Users {

  import opened Js
  import opened Tables
  import opened Schema
  import Ratings

  /** The body of `register`. */
  datatype Registration = Registration(
    name: Field<string>,
    email: string,
    password: Field<string>,
    phone: Field<string>,
    address: Field<string>,
    isAdmin: Field<bool>,
    isCourier: Field<bool>,
    isRestaurant: Field<bool>,
    vehicleMake: Field<string>,
    vehicleModel: Field<string>,
    vehicleYear: Field<int>,
    licensePlate: Field<string>,
    vehicleColour: Field<string>,
    city: Field<string>)

  /** Some user's `email` column holds `email` (`None`: is NULL). */
  predicate EmailTaken(s: Store, email: Option<string>) {
    exists k :: k in s.users.rows && s.users.rows[k].email == email
  }

  /** The courier profile `register` creates: inactive, unapproved, falsy
      vehicle and city fields stored as NULL. */
  function CourierProfile(f: Registration, userId: Id): Courier {
    Courier(userId, Stored(f.name), Some(f.email), Stored(f.phone), Stored(f.address),
            Vehicle(OrNull(f.vehicleMake, ""), OrNull(f.vehicleModel, ""), OrNull(f.vehicleYear, 0),
                    OrNull(f.licensePlate, ""), OrNull(f.vehicleColour, "")),
            OrNull(f.city, ""), false, false)
  }

  /** `register`: refuses a taken email; then hashes the password, which
      bcrypt rejects when it is missing (a 500, nothing created); stores
      `Boolean(...)` of each role flag (false when omitted) and, when
      `isCourier` is truthy, a courier profile for the new user. `hashed` is
      the hash bcrypt produced for the password sent. */
  function Register(s: Store, f: Registration, hashed: string): (r: Step<Id>)
    ensures r.Refused? <==> EmailTaken(s, Some(f.email)) || !f.password.Given?
    ensures EmailTaken(s, Some(f.email)) ==> r == Refused(BadRequest)
    ensures !EmailTaken(s, Some(f.email)) && !f.password.Given? ==> r == Refused(ServerError)
    ensures r.Done? ==>
              && Frame(s, r.store, {Users, Couriers})
              && r.value == s.users.next
              && r.store.users.next == s.users.next + 1
              && r.value in r.store.users.rows
              && WithNewRow(s.users, r.store.users, r.value, r.store.users.rows[r.value])
    ensures r.Done? ==>
              var u := r.store.users.rows[r.value];
              && u.email == Some(f.email) && u.password == hashed
              && u.name == Stored(f.name) && u.phone == Stored(f.phone) && u.address == Stored(f.address)
              && u.isAdmin == (f.isAdmin == Given(true))
              && u.isCourier == (f.isCourier == Given(true))
              && u.isRestaurant == (f.isRestaurant == Given(true))
    ensures r.Done? && f.isCourier != Given(true) ==> r.store.couriers == s.couriers
    ensures r.Done? && f.isCourier == Given(true) ==>
              && r.store.couriers.next == s.couriers.next + 1
              && s.couriers.next in r.store.couriers.rows
    ensures r.Done? && f.isCourier == Given(true) && s.couriers.next in r.store.couriers.rows ==>
              var c := r.store.couriers.rows[s.couriers.next];
              && WithNewRow(s.couriers, r.store.couriers, s.couriers.next, c)
              && c.userId == r.value && !c.isActive && !c.isApproved
              && c.name == Stored(f.name) && c.email == Some(f.email)
              && c.phone == Stored(f.phone) && c.address == Stored(f.address)
              && (Truthy(f.city, "") ==> c.city == Some(f.city.value))
              && (Truthy(f.vehicleMake, "") ==> c.vehicle.make == Some(f.vehicleMake.value))
              && (Truthy(f.vehicleModel, "") ==> c.vehicle.model == Some(f.vehicleModel.value))
              && (Truthy(f.vehicleYear, 0) ==> c.vehicle.year == Some(f.vehicleYear.value))
              && (Truthy(f.licensePlate, "") ==> c.vehicle.plate == Some(f.licensePlate.value))
              && (Truthy(f.vehicleColour, "") ==> c.vehicle.colour == Some(f.vehicleColour.value))
              && (!Truthy(f.city, "") ==> c.city == None)
              && (!Truthy(f.vehicleMake, "") ==> c.vehicle.make == None)
              && (!Truthy(f.vehicleModel, "") ==> c.vehicle.model == None)
              && (!Truthy(f.vehicleYear, 0) ==> c.vehicle.year == None)
              && (!Truthy(f.licensePlate, "") ==> c.vehicle.plate == None)
              && (!Truthy(f.vehicleColour, "") ==> c.vehicle.colour == None)
  {
    if EmailTaken(s, Some(f.email)) then Refused(BadRequest)
    else if !f.password.Given? then Refused(ServerError)
    else
      var id := s.users.next;
      var u := User(Stored(f.name), Some(f.email), hashed, Stored(f.phone), Stored(f.address),
                    Truthy(f.isAdmin, false), Truthy(f.isCourier, false), Truthy(f.isRestaurant, false));
      var s1 := s.(users := Insert(s.users, u));
      assert f.isCourier.Given? ==> (Truthy(f.isCourier, false) <==> f.isCourier.value);
      assert f.isAdmin.Given? ==> (Truthy(f.isAdmin, false) <==> f.isAdmin.value);
      assert f.isRestaurant.Given? ==> (Truthy(f.isRestaurant, false) <==> f.isRestaurant.value);
      if Truthy(f.isCourier, false) then
        Done(s1.(couriers := Insert(s1.couriers, CourierProfile(f, id))), id)
      else
        Done(s1, id)
  }

  /** `User.findOne({ where: { email } })`: the first user holding the email,
      a `null` email matching the users whose column is NULL. */
  function UserByEmail(s: Store, email: Option<string>): (r: Option<Id>)
    ensures r.Some? ==> r.value in s.users.rows && s.users.rows[r.value].email == email
    ensures r.None? <==> !EmailTaken(s, email)
  {
    var ids := Select(s.users, (u: User) => u.email == email);
    if ids == [] then None else Some(ids[0])
  }

  /** `login`: an unknown email and a wrong password get the same 401. An
      omitted email puts `undefined` in the where-clause, which Sequelize
      rejects, and bcrypt rejects a missing password; both end in a 500. */
  function Login(s: Store, email: Field<string>, password: Field<string>, verify: (string, string) -> bool)
    : (r: Reply<Id>)
    ensures r.Err? ==> r.code == Unauthorized || r.code == ServerError
    ensures email.Absent? ==> r == Err(ServerError)
    ensures !email.Absent? && !EmailTaken(s, Stored(email)) ==> r == Err(Unauthorized)
    ensures !email.Absent? && EmailTaken(s, Stored(email)) && !password.Given? ==> r == Err(ServerError)
    ensures r.Ok? ==>
              && r.value in s.users.rows
              && s.users.rows[r.value].email == Stored(email)
              && password.Given?
              && verify(password.value, s.users.rows[r.value].password)
    ensures !email.Absent? && password.Given? ==>
              && ((forall k :: k in s.users.rows && s.users.rows[k].email == Stored(email) ==>
                     verify(password.value, s.users.rows[k].password)) ==> (r.Ok? <==> EmailTaken(s, Stored(email))))
              && ((forall k :: k in s.users.rows && s.users.rows[k].email == Stored(email) ==>
                     !verify(password.value, s.users.rows[k].password)) ==> r == Err(Unauthorized))
  {
    if email.Absent? then Err(ServerError)
    else
      var found := UserByEmail(s, Stored(email));
      if found.None? then Err(Unauthorized)
      else if !password.Given? then Err(ServerError)
      else if !verify(password.value, s.users.rows[found.value].password) then Err(Unauthorized)
      else Ok(found.value)
  }

  /** The body of `updateUser`. */
  datatype Profile = Profile(
    name: Field<string>,
    email: Field<string>,
    phone: Field<string>,
    address: Field<string>,
    password: Field<string>)

  /** `updateUser`: writes the profile fields sent (omitted ones are kept) and
      replaces the password hash only when a truthy password is sent. The role
      flags are never touched. */
  function UpdateUser(s: Store, id: Id, f: Profile, hashed: string): (r: Step<User>)
    ensures r.Refused? <==> id !in s.users.rows
    ensures r.Refused? ==> r.code == NotFound
    ensures r.Done? ==>
              var u := s.users.rows[id];
              && Frame(s, r.store, {Users})
              && OnlyRow(s.users, r.store.users, id)
              && r.value == r.store.users.rows[id]
              && (Truthy(f.password, "") ==> r.value.password == hashed)
              && (!Truthy(f.password, "") ==> r.value.password == u.password)
              && (f.name.Absent? ==> r.value.name == u.name)
              && (!f.name.Absent? ==> r.value.name == Stored(f.name))
              && (f.email.Absent? ==> r.value.email == u.email)
              && (!f.email.Absent? ==> r.value.email == Stored(f.email))
              && (f.phone.Absent? ==> r.value.phone == u.phone)
              && (!f.phone.Absent? ==> r.value.phone == Stored(f.phone))
              && (f.address.Absent? ==> r.value.address == u.address)
              && (!f.address.Absent? ==> r.value.address == Stored(f.address))
              && r.value.isAdmin == u.isAdmin && r.value.isCourier == u.isCourier
              && r.value.isRestaurant == u.isRestaurant
  {
    if id !in s.users.rows then Refused(NotFound)
    else
      var u := s.users.rows[id];
      var u' := u.(name := Updated(f.name, u.name), email := Updated(f.email, u.email),
                   phone := Updated(f.phone, u.phone), address := Updated(f.address, u.address),
                   password := if Truthy(f.password, "") then hashed else u.password);
      Done(s.(users := Put(s.users, id, u')), u')
  }

  /** `deleteAccount`: the user and, by the rating table's cascade, its
      ratings. Orders, restaurants and courier profiles that point at the user
      are left in place. */
  function DeleteAccount(s: Store, id: Id): (r: Step<()>)
    ensures r.Refused? <==> id !in s.users.rows
    ensures r.Refused? ==> r.code == NotFound
    ensures r.Done? ==>
              && Frame(s, r.store, {Users, Ratings})
              && WithoutRow(s.users, r.store.users, id)
              && r.store.ratings.next == s.ratings.next
              && (forall k :: k in r.store.ratings.rows <==> k in s.ratings.rows && s.ratings.rows[k].userId != id)
              && (forall k :: k in r.store.ratings.rows ==> r.store.ratings.rows[k] == s.ratings.rows[k])
  {
    if id !in s.users.rows then Refused(NotFound)
    else Done(s.(users := Remove(s.users, id), ratings := Ratings.Cascade(s.ratings, Ratings.OfUser, id)), ())
  }
}
